=== FILE: README.md ===
# processWatchdog in Dafny

processWatchdog is a C supervisor. It reads a list of applications from an
ini file, starts each one after its start delay, and restarts an application
that crashes or stops sending heartbeats. A heartbeat is a UDP datagram
`p<pid>`. The watchdog also obeys command files (`start<app>`, `stop<app>`,
`restart<app>`, `wdtstop`, `wdtrestart`, `wdtreboot`), keeps per-application
statistics, and reboots the system periodically when configured to.
`test_child.py` is the child process the tests supervise.

This project models the decision logic of the watchdog and of the test child
as pure functions. The clocks, the set of files in the working directory, the
operating system's answers (fork, kill, waitpid) and the random draws of the
child are parameters. Each module follows one source file:

| module | source |
|---|---|
| `Limits` | constants of `apps.h`, `cmd.h`, `filecmd.h`; 32-bit wrap-around and C division |
| `Utils` | `utils.c`: `parse_number`, `parse_int`, `pstrcpy`, `crc16`, `findin`, `sgets`, `substring`, `toLower` |
| `Command` | `cmd.c`: datagram classification; the heartbeat payload of `test_child.py` |
| `Apps` | `apps.c` table lookups and start time; the record transitions of `process.c` |
| `Heartbeat` | `heartbeat.c` and `is_timeup` of `apps.c` |
| `Stats` | `stats.c`: event counters and running average, minimum and maximum |
| `FileCmd` | `filecmd.c`: command file names over a set of names |
| `Config` | `config_ini_handler` and `config_parse_file` of `config.c`; `handler` and `read_ini_file` of `apps.c` |
| `Supervisor` | `main.c`: signals, the heartbeat branch, the per-application decision, global commands, the periodic reboot, one loop pass |
| `TestChild` | `test_child.py`: arguments, delays, jitter bounds, the 180 s ceiling and the roles |

Notes on how the code is read:

- The test child's ceiling is a fixed 180 s after the loop starts. Its
  first sleep is `int(heartbeat_delay / 2 + 1)`. Only the roles `crash` and
  `noheartbeat` act at the ceiling.
- `heartbeat_is_timeout` reads the monotonic clock, while `is_timeup`,
  `update_heartbeat_time` and the restart path read the wall clock. The model
  keeps the two clocks apart (`Supervisor.Clocks`). Each application's turn
  reads them afresh, because the restarts and kills of the slots before it
  sleep; a pass therefore takes one set of clock readings per slot.
- `main.c` treats the first heartbeat of a run differently from later ones.
  It updates the first-heartbeat statistics whatever the sign of the elapsed
  time. It updates the regular statistics only when the elapsed time is not
  negative. Every heartbeat restarts the deadline.
- `main.c` reads its settings with `read_ini_file` of `apps.c`. That function
  does not reset `periodic_reboot` and its callback does not know the key, so
  the reboot setting keeps whatever value it had before
  (`Config.ReadIniFileNoReboot`). The loop model takes the reboot
  setting as part of its state, so it also covers settings read by
  `config_parse_file`.
- A periodic reboot that falls due in the same pass as a global command file
  overrides that file's exit code (`Supervisor.RebootOverridesGlobalCommand`).
- The parse functions and the main loop run the code as written, including
  three of the defects listed under "## Findings": `Config.ParseFile` and
  `Config.ReadIniFile` keep 31 characters of the section,
  `Supervisor.OnDatagram` parses the pid in an `int`, and
  `Supervisor.OnHeartbeat` restarts the first-heartbeat minimum on the
  `start_count` field. Each corrected version is defined beside the one
  written, with its intended property proved, and a lemma states when the
  two agree.

## Model

| member | source | states |
|---|---|---|
| Utils.ParseNumber | src/utils.c:327-369 | no result exactly when the memory holds no digit and no '-'; otherwise it skips to the first digit or '-', takes one optional '-', reads digits only below index `length`, and returns the signed value of exactly the digits read together with the index reached |
| Utils.ParseNumberAsWrittenWraps | src/utils.c:329-353 | the source's `int` accumulator returns the 32-bit two's-complement wrap of the full-width value, and consumes the same characters |
| Utils.StrToL | src/utils.c:375 | without digits: value 0, end 0, no ERANGE; otherwise the end is just past the digits "%d" reads, ERANGE is set exactly when the number lies outside the `long` range, the value is that number when it fits and the nearer bound of the range otherwise |
| Utils.ParseInt | src/utils.c:371-384 | accepted exactly when strtol reads a number within the `long` range, stops at the terminator or the end, and the number lies in [min, max]; the result is that number. A string without digits counts as 0 when the terminator comes first |
| Utils.ParseIntDecimal | src/utils.c:371-384 | round trip: the decimal form of any `long` value in [min, max] parses back to that value |
| Utils.ParseIntOutOfRange | src/utils.c:377-380 | the decimal form of a value outside [min, max] is refused |
| Utils.ParseIntTrailing | src/utils.c:377-380 | a number followed by any character other than the terminator is refused |
| Utils.StrNCopy | src/cmd.c:62-63 | strncpy to n characters plus a terminator yields a prefix of the source string of at most n characters, and the whole string when it is shorter than n |
| Utils.PStrCpy | src/utils.c:23-35 | the source string and its terminator are copied to the destination offset, nothing else in the buffer changes, and the returned index is offset + strlen |
| Utils.Crc16 | src/utils.c:272-285 | 0xFFFF for empty input; for any input of up to 255 bytes it equals the bit-serial CRC with polynomial 0x1021 and initial value 0xFFFF |
| Utils.StepIsReference | src/utils.c:279-281 | the source's byte formula, with its 8-bit and 16-bit truncations, equals eight shifts of the bit-serial CRC register |
| Utils.Crc16CheckValue | src/utils.c:272-285 | the CRC of "123456789" is 0x29B1, the published check value of CRC-16/CCITT-FALSE |
| Utils.Crc16Append | src/utils.c:277-282 | the CRC of a concatenation continues from the CRC of its first part |
| Utils.FindIn | src/utils.c:287-324 | the corrected search: returns the first offset at which the needle occurs, and nothing exactly when it occurs nowhere |
| Utils.FindInMissesLastOffset | src/utils.c:311-322 | as written, findin("abc", "bc") finds nothing although "bc" occurs at offset 1 |
| Utils.FindInAsWrittenAgrees | src/utils.c:293-324 | every answer of the source is the first occurrence, and it differs from the corrected search only when the needle occurs first at the last offset hs - ns |
| Utils.Sgets | src/utils.c:238-270 | no line from an empty string; otherwise the line read and the rest of the source together give the source back, the line has at most n - 1 characters, no '\n' except as its last character, and it ends at a '\n', at the size limit or at the end of the source; it is terminated exactly when n >= 1 |
| Utils.Substring | src/utils.c:386-397 | the result has max(l, 0) characters, character c being s[p + c - 1] |
| Utils.SubstringSplit | src/utils.c:386-397 | adjacent substrings concatenate to the substring that spans both |
| Utils.ToLower | src/utils.c:426-432 | the result holds no upper-case letter, equals the input up to letter case, and keeps every character that is not an upper-case letter |
| Utils.ToLowerUnique | src/utils.c:426-432 | those three facts determine the result: any string without upper-case letters that equals the input up to case is its lower-case form |
| Utils.ToLowerIdempotent | src/utils.c:426-432 | the result holds no upper-case letter, and lower-casing twice is lower-casing once |
| Utils.ToLowerEqualIff | src/utils.c:426-432 | two strings have the same lower-case form exactly when they are equal up to letter case |
| Command.ParseNetworkWith | src/cmd.c:28-113 | a null pointer or a length of 0 or less gives UNKNOWN with pid 0 and an empty name; a pid only comes with HEARTBEAT; HEARTBEAT exactly when the first byte is 'p' and the int parse_number returns lies in (0, INT32_MAX), and then the pid is that int; START, STOP and RESTART come exactly from the first bytes 'a', 'o' and 'r', with a name that is the string after the first byte cut to 31 characters; anything else is UNKNOWN |
| Command.ParseNetworkAsWritten | src/cmd.c:40-55 | as written: HEARTBEAT exactly when the first byte is 'p' and the number of the datagram, wrapped to 32 bits as parse_number's int accumulator does, lies in (0, INT32_MAX), and then the pid is that wrapped number |
| Command.ParseDatagramAsWritten | src/main.c:338-343 | the datagram main.c terminates at data[length] and hands over is a heartbeat exactly when it starts with 'p' and its number wrapped to 32 bits lies in (0, INT32_MAX), with that pid |
| Command.ParseDatagram | src/main.c:338-343 | the same hand-over with the corrected parse: the pid is the full number, accepted only in (0, INT32_MAX) |
| Command.ParseNetwork | src/cmd.c:40-55 | the corrected parse: HEARTBEAT exactly when the first byte is 'p' and the number parse_number reads lies in (0, INT32_MAX), and then the pid is that number |
| Command.HeartbeatPayload | test_child.py:88 | the payload is 'p' followed by decimal digits whose value is the pid |
| Command.PayloadNumber | src/utils.c:327-369 | parse_number reads back the pid of a heartbeat payload and consumes the whole payload |
| Command.HeartbeatRoundTrip | src/cmd.c:40-49 | round trip: for 0 < pid < INT32_MAX the child's payload is classified, by both versions of the parse, as a heartbeat from that pid with an empty name |
| Command.OutOfRangePidRefused | src/cmd.c:45-54 | a payload whose number is 0 or at least INT32_MAX is UNKNOWN in the full-width parse |
| Command.ControlRoundTrip | src/cmd.c:58-83 | round trip: a name of at most 31 characters without a terminator, sent after 'a', 'o' or 'r', comes back as that name with the matching command |
| Command.AsWrittenAgrees | src/cmd.c:42-49 | the source's parse equals the full-width parse on every datagram whose number fits in an int |
| Command.WrappedPidAccepted | src/cmd.c:42-48 | as written, "p4294967297" is a heartbeat from pid 1, while the full-width parse refuses it |
| Command.Printable | src/cmd.c:91-109 | the logged string has min(length, 32) characters (none for a length of 0 or less); each is printable, and it is the datagram's byte exactly when that byte lies in [32, 127), '.' otherwise |
| Command.PrintableOfPrintable | src/cmd.c:106-109 | a datagram that is printable already is logged unchanged, up to 32 bytes |
| Apps.FindPid | src/apps.c:68-79 | the least index below app_count whose positive pid equals the argument, and -1 exactly when there is none |
| Apps.FindPidNonPositive | src/apps.c:72 | a pid of 0 or below is never found |
| Apps.FindPidUnique | src/apps.c:68-79 | when the live pids of the table are distinct, every live pid is found at its own index |
| Apps.StartTimeStays | src/apps.c:310-313 | once the uptime since loading reaches start_delay, it stays reached as the uptime grows |
| Apps.UpdateTime | src/apps.c:62-66 | the last heartbeat becomes the clock reading; run state and configuration are kept |
| Apps.Start | src/process.c:84-126 | a failed fork leaves the pid 0; a successful one marks the application started, without a first heartbeat, with the child's pid and the heartbeat time now; configuration and consistency are kept |
| Apps.Kill | src/process.c:128-226 | nothing happens without a positive pid or when the process did not terminate; otherwise started, the first-heartbeat flag and the pid are cleared |
| Apps.Restart | src/process.c:228-266 | after a successful fork the application runs under the new pid without a first heartbeat, with the heartbeat time taken after the wait when the process is seen running and at the start otherwise. After a failed fork the pid is 0, the heartbeat time is unchanged, and the application stays started (and keeps its first-heartbeat flag) unless the kill before the fork stopped a running process |
| Apps.FailedRestartStaysCrashed | src/process.c:233-257 | a crashed application whose restart cannot fork stays started with pid 0, so it is found not running again |
| Heartbeat.Threshold | src/heartbeat.c:79-81 | after the first heartbeat the allowance is exactly heartbeat_interval; before it, it is heartbeat_interval or heartbeat_delay, whichever is larger |
| Heartbeat.ElapsedTime | src/heartbeat.c:46-51 | last heartbeat plus elapsed time is now |
| Heartbeat.SetFirstReceived | src/heartbeat.c:92-102 | afterwards the first-heartbeat flag reads true; nothing else changes |
| Heartbeat.IsTimeout | src/heartbeat.c:53-90 | true exactly when the application is started, expects heartbeats and now - last_heartbeat has reached the threshold, and then the record is untouched; a record not started or with interval 0 or below is untouched; a clock reading before the last heartbeat moves the last heartbeat to now (the same decision as is_timeup in apps.c) |
| Heartbeat.TimeoutMonotone | src/heartbeat.c:68-89 | a timed-out record stays timed out at every later clock reading |
| Heartbeat.NoTimeoutAfterUpdate | src/heartbeat.c:79-89 | after a heartbeat at `now` there is no timeout before now + threshold |
| Heartbeat.TimeoutAtThreshold | src/heartbeat.c:83-87 | for a started application that expects heartbeats, the timeout fires exactly at the threshold |
| Heartbeat.FirstThresholdLonger | src/heartbeat.c:79-81 | the threshold before the first heartbeat is at least the regular one |
| Heartbeat.ClockAnomalyResets | src/heartbeat.c:72-77 | a clock reading before the last heartbeat gives no timeout and restarts the deadline at that reading, so the elapsed time becomes 0 |
| Stats.Record | src/stats.c:55-80 | the event's own counter rises by one and its time stamp is now; the other counters and stamps are kept; the heartbeat count moves to heartbeat_count_old and restarts at 0 |
| Stats.RecordAddsRun | src/stats.c:103 | every event adds one to the divisor of the first-heartbeat average |
| Stats.UpdateHeartbeat | src/stats.c:82-99 | the count rises by one, the maximum is max(old, t), the minimum is t on the first sample of a count and min(old, t) after; no other field changes |
| Stats.HeartbeatAverageExact | src/stats.c:86 | without overflow and for non-negative values, the unsigned running average is (avg * (n - 1) + t) / n |
| Stats.UpdateHeartbeatOrdered | src/stats.c:82-99 | for non-negative samples and no overflow, 0 <= min <= avg <= max is kept |
| Stats.UpdateFirstHeartbeat | src/stats.c:101-118 | the corrected update: the maximum is max(old, t), the minimum restarts only on the first run, and the average is the running average over start, crash and reset counts |
| Stats.UpdateFirstHeartbeatAsWritten | src/stats.c:101-118 | the update main.c runs: the maximum is max(old, t) and the average and every other field are as in the corrected update; only the minimum differs, restarting at t whenever the start_count field is 1 and otherwise min(old, t) |
| Stats.UpdateFirstHeartbeatOrdered | src/stats.c:101-118 | with the corrected minimum, non-negative first-heartbeat times keep 0 <= min <= avg <= max |
| Stats.FirstMinimumAsWrittenExceedsAverage | src/stats.c:114-117 | as written, after one start and one crash a first heartbeat of 50 s over a history of 5 s makes the minimum 50 above the average 27 |
| Stats.FirstHeartbeatVersionsAgree | src/stats.c:103-117 | the source and the corrected update agree whenever start_count is 1 only on the first run |
| Stats.ResetStatistics | src/stats.c:168-176 | the magic value is always present afterwards; a record with it is kept and one without it becomes a zero record carrying it |
| Stats.ResetIdempotent | src/stats.c:168-176 | resetting twice is resetting once |
| Stats.ResetOrdered | src/stats.c:173-174 | a freshly reset record satisfies both min <= avg <= max invariants |
| FileCmd.FileName | src/filecmd.c:42-49 | the name is the action's prefix followed by the application name, character by character lower-cased |
| FileCmd.FileNameIgnoresCase | src/filecmd.c:47-48 | two application names give the same file exactly when they are equal up to letter case |
| FileCmd.FileNamesOfActionsDiffer | src/filecmd.c:34-40 | the start, stop and restart files never coincide, whatever the application names |
| FileCmd.FileNameNotGlobal | src/filecmd.h:34-36 | no application command file is wdtstop, wdtrestart or wdtreboot |
| FileCmd.Remove | src/filecmd.c:87-109 | the file is absent afterwards, and nothing changes when it was absent already |
| FileCmd.Create | src/filecmd.c:111-133 | the file is present afterwards, and nothing changes when it was present already |
| FileCmd.RemoveIdempotent | src/filecmd.c:87-109 | removing twice is removing once |
| FileCmd.CreateIdempotent | src/filecmd.c:111-133 | creating twice is creating once |
| FileCmd.RemoveKeepsOtherActions | src/filecmd.c:58-63 | removing one action's file leaves every other action's query unchanged, for every application |
| FileCmd.CreateThenRemove | src/filecmd.c:87-133 | creating a missing command file and removing it restores the file set |
| FileCmd.Consume | src/filecmd.c:135-145 | answers whether the file existed, and leaves it absent |
| FileCmd.ConsumeOnce | src/filecmd.c:135-145 | a consumed command is seen only once |
| Config.UnitMinutes | src/config.c:136-160 | a unit is worth 0 minutes (unknown) or at least an hour |
| Config.ParseReboot | src/config.c:105-186 | the result is always within bounds (interval in [60, 525600] minutes, daily time in 00:00..23:59); it is a daily time exactly when "%d:%d" reads two in-range fields, and then it holds them; an interval needs no "%d:%d" match and a positive leading number |
| Config.ScanTimeOf | src/config.c:110 | "H:M" is read by "%d:%d" as the pair (H, M) |
| Config.RebootDaily | src/config.c:110-118 | "H:M" with 0 <= H <= 23 and 0 <= M <= 59 gives a daily reboot at H:M |
| Config.RebootDailyOutOfRange | src/config.c:107-119 | "H:M" with a field out of range disables the reboot |
| Config.RebootInterval | src/config.c:120-183 | a count n followed by h, d, w or m (either case) gives an interval of n times the unit's minutes when n > 0 and it is at most a year, and disables the reboot otherwise |
| Config.RebootDays | src/config.c:122-131 | a count without a unit counts days |
| Config.RebootUnknownUnit | src/config.c:158-162 | a count followed by an unknown unit character disables the reboot |
| Config.RebootNeedsNumber | src/config.c:127 | a value without a leading number disables the reboot |
| Config.FindName | src/config.c:78-92 | the first registered application with this name, and -1 exactly when there is none |
| Config.Register | src/config.c:63-65 | the new application takes the next slot with its name cut to 31 characters, the count rises by one, and no other slot changes |
| Config.Enter | src/config.c:49-75 | the empty-name error happens exactly for a new "app:" section with an empty name while the table has room; a new "app:" section registers one application only while fewer than 6 are registered; a repeated section changes nothing |
| Config.Assign | src/config.c:94-226 | the count and names are kept, the well-formedness invariant is kept, periodic_reboot (when known) sets the mode from the value, and udp_port sets the port exactly when the value parses within [1, 65535] |
| Config.HandlerWith | src/config.c:40-227 | every callback keeps: at most 6 applications, non-empty names of at most 31 characters, commands of at most 255, delays and intervals in [0, INT_MAX], a port in [1, 65535], a reboot setting in bounds; an empty app name is an error that changes nothing |
| Config.PortKey | src/config.c:97-104 | udp_port is accepted exactly when it parses within [1, 65535], and then it becomes the port; a refused value leaves the port |
| Config.DelayKey | src/config.c:188-213 | start_delay, heartbeat_delay and heartbeat_interval are accepted exactly when they parse within [0, INT_MAX], and then they are stored in the first application of that name and nowhere else |
| Config.CmdKey | src/config.c:214-223 | cmd stores the first 255 characters either way and is an error exactly when the value has 256 or more |
| Config.UntrackedSectionIgnored | src/config.c:188 | keys of a section that names no registered application are accepted and change nothing |
| Config.Run | src/config.c:264-268 | over a whole file the invariant of the callback holds, the count never falls, and the first error reported is the index of an entry |
| Config.DefaultsWellFormed | src/config.c:255-259 | the defaults (empty table, port 12345, no reboot) satisfy the invariant |
| Config.ParseFile | src/config.c:252-273 | the parse starts from the defaults whatever the previous file said and runs config_ini_handler as written, keeping 31 characters of the section; the result satisfies the invariant |
| Config.ReadIniFile | src/apps.c:251-276 | the table, count and port are reset as config_parse_file resets them, but periodic_reboot keeps its previous value; the apps.c callback as written also keeps 31 characters of the section (apps.c:199-200); the invariant holds when the previous reboot setting was in bounds |
| Config.LastRebootWins | src/config.c:105-107 | the last periodic_reboot key of a file decides the mode |
| Config.NoRebootKeepsMode | src/config.c:105 | without a periodic_reboot key the mode stays as it was |
| Config.ReadIniFileNoReboot | src/apps.c:215-255 | read_ini_file leaves the periodic reboot setting exactly as it was: it neither resets it nor knows its key |
| Config.CallbacksAgree | src/apps.c:177-249 | the apps.c callback and config_ini_handler agree on the verdicts and on everything but the reboot mode |
| Config.ParseFileAgreesWithReadIniFile | src/apps.c:251-276 | read_ini_file and config_parse_file, both as written, read the same table, count and port, with the same first error |
| Config.LongSectionRegisteredTwice | src/config.c:49-75 | as written, two keys of an "app:" section of 32 or more characters register the application twice |
| Config.ParseFileRegistersLongSectionTwice | src/config.c:252-273 | as written, config_parse_file of a file with two keys under one such section yields two applications |
| Config.SeenSectionRegistersNothing | src/config.c:49 | remembering the whole section name, further keys of the current section register nothing |
| Config.SectionRegisteredOnce | src/config.c:49-75 | remembering the whole section name, a run of keys of one section registers at most one application |
| Config.ShortSectionsAgree | src/config.c:73-74 | keeping 31 characters of the section is harmless when every section fits in 31 characters |
| Config.ParseFileShortSections | src/config.c:73-74 | when every section fits in 31 characters, config_parse_file as written reads the file as the corrected callback does, so a run of keys of one section registers at most one application |
| Supervisor.OnSignal | src/main.c:148-182 | INT and TERM stop the loop with code 2, QUIT with 3, USR1 with 0 and uses up one of the allowance, or exits at once when it is spent; USR2 does nothing |
| Supervisor.Usr1Countdown | src/main.c:166-181 | n USR1 signals stop the loop with code 0 and take n from the allowance; the process exits at once exactly when n exceeds it |
| Supervisor.ExitedStays | src/main.c:180 | once the process has exited, further signals change nothing |
| Supervisor.TenthAndEleventhUsr1 | src/main.c:143 | ten USR1 signals spend the allowance of 10 without exiting; the eleventh exits |
| Supervisor.OnHeartbeat | src/main.c:51-77 | a heartbeat from an unknown pid changes nothing; otherwise only that application changes: the first heartbeat of a run updates the first-heartbeat statistics with stats_update_first_heartbeat_time as written and sets the flag, a later one updates the regular statistics when the elapsed time is not negative, and every heartbeat sets the last heartbeat to now |
| Supervisor.HeartbeatDefersTimeout | src/main.c:74 | after a heartbeat the application does not time out for the whole threshold that follows |
| Supervisor.SecondHeartbeatIsRegular | src/main.c:59-72 | the heartbeat after the first one goes to the regular statistics with the time between the two |
| Supervisor.OnDatagram | src/main.c:43-53 | a datagram cmd_parse_network as written does not classify as a heartbeat leaves the table unchanged, and the configuration is always kept |
| Supervisor.ChildHeartbeatArrives | src/main.c:43-53 | the test child's payload acts as a heartbeat from its pid |
| Supervisor.WrappedHeartbeatReachesPidOne | src/main.c:43-53 | as written, the datagram "p4294967297" acts as a heartbeat of the application whose pid is 1 |
| Supervisor.Decide | src/main.c:348-404 | a started application is restarted as crashed exactly when not running; else restarted on a timeout; else killed on a stop file; else restarted on a restart file; an application not started is started exactly when there is no stop file and a start file or its start time |
| Supervisor.AppTurn | src/main.c:350-403 | the branch taken does what the source does: crash and timeout record their event and restart the application record as it was, stop kills, restart restarts and removes the restart file, a successful start records the start and removes the start and restart files; no other branch touches the files or the statistics, and the watchdog's own command files are never touched |
| Supervisor.OneActionPerTurn | src/main.c:365-387 | a started application is never started again in the same pass; one that is not started is at most started |
| Supervisor.StopFileBlocksStart | src/main.c:391 | a stop file keeps a stopped application stopped, whatever else holds |
| Supervisor.ScanFrom | src/main.c:348-404 | the scan, with each slot's turn reading its own clocks, keeps the table invariant and configuration, touches no slot at or above app_count, and only removes files, never the watchdog's own |
| Supervisor.ScanSlotReadsItsClock | src/main.c:348-404 | the scan leaves each slot below app_count as that slot's turn does with the clocks read at that turn |
| Supervisor.LateSlotTimesOutInSamePass | src/heartbeat.c:52-90 | an application whose deadline passes while earlier slots are served (their restarts and kills sleep, process.c:150 and 244) is restarted for the timeout in the same pass |
| Supervisor.GlobalCommands | src/main.c:407-424 | wdtstop (code 0) before wdtrestart (2) before wdtreboot (3); only the first one present is consumed and the loop stops; without them nothing changes |
| Supervisor.RebootDue | src/main.c:427-463 | a reboot is only due on a whole minute of uptime and with a mode set; a daily reboot is due exactly on a whole minute of uptime when the local hour and minute are the configured ones |
| Supervisor.IntervalRebootDue | src/main.c:446-457 | an interval reboot of n minutes is due exactly at the positive multiples of 60 n seconds of uptime |
| Supervisor.RebootOverridesGlobalCommand | src/main.c:407-463 | a due reboot stops the loop with code 3 whatever command file was seen in the same pass |
| Supervisor.Pass | src/main.c:323-463 | a pass, with the datagram parse and the statistics updates as written and one clock reading per application slot, keeps the table invariant, the configuration and the reboot mode; a failed poll while running only stops the loop; a stopped loop stays stopped |
| Supervisor.StopFileStopsWatchdog | src/main.c:407-412 | a wdtstop file present at the start of a pass is consumed and stops the loop with code 0, or 3 when the reboot is due in that pass |
| TestChild.PyInt | test_child.py:30 | accepted exactly when the argument is white space, an optionally signed run of digits and white space only; the value is that number |
| TestChild.ParseIndex | test_child.py:18-33 | the index is 1 when the argument is absent or not an integer, and the integer otherwise |
| TestChild.IndexRoundTrip | test_child.py:28-32 | the decimal form of any integer is read back as the index |
| TestChild.ParseRole | test_child.py:35-41 | the role is "crash" when the argument is absent, and the argument otherwise |
| TestChild.InitialWait | test_child.py:75 | the first sleep is delay / 2 + 1 for a non-negative delay, and can be slept exactly when the delay is at least -3 |
| TestChild.FirstHeartbeatEarly | test_child.py:75-77 | for a heartbeat delay of at least 3 s the first heartbeat is sent before the delay is over |
| TestChild.EffectiveInterval | test_child.py:80-81 | an interval of 0 becomes 1000; any other interval is kept |
| TestChild.WaitBoundsPositive | test_child.py:100 | for a positive interval the wait range is non-empty, non-negative and below the interval |
| TestChild.WaitBoundsNegative | test_child.py:100 | for an interval of -2 or less no wait can be slept, and from -6 down the range is empty |
| TestChild.Launch | test_child.py:74-84 | the child raises before its loop when the first sleep is negative; otherwise the loop starts after that sleep, with no heartbeat sent yet |
| TestChild.Step | test_child.py:86-114 | each iteration sends exactly one heartbeat stamped with the current clock; it raises exactly when the wait range is empty or negative; otherwise the clock advances by at least the draw |
| TestChild.GapBelowInterval | test_child.py:99-103 | before the ceiling the next heartbeat follows after exactly the draw, less than the interval later |
| TestChild.ChildMeetsDeadline | test_child.py:99-103 | a watchdog configured with the child's interval never times the child out between two heartbeats before the ceiling |
| TestChild.PayloadIsHeartbeat | test_child.py:88 | every datagram the child sends is classified as a heartbeat from its pid |
| TestChild.StallAfterCeiling | test_child.py:107-111 | past the ceiling the noheartbeat role goes silent for at least 9000 s and keeps looping |
| TestChild.CrashAtCeiling | test_child.py:112-114 | past the ceiling the crash role exits with status 0 |
| TestChild.OtherRolesIgnoreCeiling | test_child.py:107-114 | any other role keeps sending past the ceiling |
| TestChild.Run | test_child.py:86-114 | the loop keeps the interval, start and role, ends nothing that has ended, and sends at most one heartbeat per draw; draws are constrained only when randint's range is not empty |
| TestChild.EmptyRangeSendsThenRaises | test_child.py:86-103 | with randint's range empty, the loop sends one heartbeat and then raises |
| TestChild.CrashChildEnds | test_child.py:86-114 | a crash child with an interval of at least 3 s has exited with status 0 within 180 iterations of its loop |

## Left out

- The ini tokeniser (`ini.h`) is not part of this model. A file is the sequence of (section, name, value) triples it hands to the callback. `Config.Run` carries on after a callback error, as inih does by default, and reports the first error.
- `Config.Run`: the callback's static `last_section` is a parameter of the parse and is not carried from one parse to the next.
- `Utils.ParseNumber`: the source's skip loop does not stop at the terminator. When the memory holds no digit and no '-', the model answers None instead of reading past the buffer. The `char` character counter `i` of the source is taken unbounded, so datagrams of more than 127 characters are not modelled as the source's counter would wrap.
- `Utils.StrToL`: errno's EINVAL and the detailed ERANGE rules of strtol are reduced to clamping to the `long` range.
- `Config.ParseReboot`: an overflow in sscanf's "%d" is not modelled; the fields are taken at their full value.
- `Stats.UpdateFirstHeartbeat`: the divisor is held in an `int` in the source; the model takes the counters unbounded. The `size_t` and `time_t` counters of the statistics are unbounded too, except in the regular average, whose unsigned arithmetic is written out (`Stats.HeartbeatAverage`).
- `Stats.UpdateHeartbeatOrdered`: proved only for sums that fit in a `long`.
- `TestChild.PyInt`: Python's `int()` also accepts underscores between digits and Unicode digits and spaces; the model accepts ASCII decimal digits and C white space only.
- `TestChild.Step`: time passes only during the sleeps; the time the sends and prints take is not counted, so the clock is a lower bound of the real one.
- `Apps.Restart`, `Apps.Kill`, `Apps.Start`: fork, exec, kill, waitpid and the sleeps of `process.c` are reduced to their answers, passed in as parameters. The child side of fork (a return of 0) is not modelled.
- `Supervisor.Pass`: signals that arrive in the middle of a pass are modelled only between passes (`Supervisor.OnSignals`). The daily reboot takes the local hour and minute as parameters instead of calling `localtime`.
- `src/server.c` and the UDP socket: operating-system networking. A poll is a parameter (a failure or the bytes received).
- `src/log.c` and all logging: output only.
- `stats_print_to_file`, `stats_write_to_file`, `stats_read_from_file`, `printDate`, and the periodic 15-minute statistics writes of `main.c`: file I/O and formatting. `stats_update_resource_usage` is not part of this model.
- `config_validate_file`, `config_is_file_updated`, `check_ini_file`, `set_ini_file`: file-system queries.
- `find_replace_text`, `humansize`, `timestamp`, `get_uptime`, `delay_ms`, `time_ms`, `run_command` and the `f_*` helpers of `utils.c`: I/O, clocks, floating point or exec.
- The `#if 0` blocks of `main.c` (the network start, stop and restart commands and the ini reload): disabled in the source.
- `src/test.c`: demonstrations of the exit codes, with no logic.
- Command-line options of `main.c` (`-i`, `-t`, `-v`, `-h`): they only set the ini path or print.

## Findings

| source | as written | input that shows it | evidently intended | confidence | as-written member | corrected member |
|---|---|---|---|---|---|---|
| src/utils.c:329-353 | parse_number accumulates in an `int`, so a number beyond 32 bits wraps before `cmd_parse_network` checks 0 < n < INT32_MAX | the datagram "p4294967297" is a heartbeat from pid 1 | a number that is no valid pid is refused | high, not executed | Command.WrappedPidAccepted | Command.ParseNetwork |
| src/utils.c:311-322 | after the equal-size case, findin scans offsets [0, hs - ns) only | findin("abc", "bc") returns NULL | the last offset hs - ns is examined too | high, not executed | Utils.FindInMissesLastOffset | Utils.FindIn |
| src/config.c:73-74 | last_section keeps only 31 characters, so a section of 32 or more characters never equals it and counts as new at every key | an "app:" section with a 28-character name and two keys registers the application twice | each section registers one application | medium, not executed | Config.LongSectionRegisteredTwice | Config.SectionRegisteredOnce |
| src/stats.c:114 | the minimum first-heartbeat time restarts whenever the field start_count is 1, which also holds on runs after a crash or reset | start_count 1, crash_count 1, history 5 s, new first heartbeat 50 s: minimum 50, average 27 | the minimum restarts only on the first run (the local combined count is 1) | medium, not executed | Stats.FirstMinimumAsWrittenExceedsAverage | Stats.UpdateFirstHeartbeatOrdered |

=== FILE: apps.dfy ===
/** apps.c: the application table, pid lookup and the start-time rule,
    together with what starting, killing and restarting an application
    (process.c) does to its record. The operating system's answers
    (fork's result, whether a process is alive, whether it terminated)
    are parameters. */
module Apps {
  import opened Limits

  /** Application_t: the fields read from the ini file, then the run state. */
  datatype App = App(
    name: seq<char>,
    cmd: seq<char>,
    startDelay: int,
    heartbeatDelay: int,
    heartbeatInterval: int,
    started: bool,
    firstHeartbeat: bool,
    pid: int,
    lastHeartbeat: int)

  /** A record as memset(0) leaves it. */
  const EmptyApp := App([], [], 0, 0, 0, false, false, 0, 0)

  /** What the run-state transitions keep: a live pid and the
      first-heartbeat flag only for a started application. */
  predicate Consistent(a: App)
  {
    (a.pid > 0 ==> a.started) && (a.firstHeartbeat ==> a.started)
  }

  /** The ini-file part of two records agrees. */
  predicate SameConfig(a: App, b: App)
  {
    a.name == b.name && a.cmd == b.cmd && a.startDelay == b.startDelay
    && a.heartbeatDelay == b.heartbeatDelay && a.heartbeatInterval == b.heartbeatInterval
  }

  /** The test find_pid applies to one entry. */
  predicate Owns(a: App, pid: int) { 0 < a.pid && a.pid == pid }

  function FindPidFrom(apps: seq<App>, count: int, pid: int, i: nat): (r: int)
    requires count <= |apps|
    ensures r == -1 || i <= r < count
    ensures r >= 0 ==> Owns(apps[r], pid) && forall j :: i <= j < r ==> !Owns(apps[j], pid)
    ensures r == -1 <==> forall j :: i <= j < count ==> !Owns(apps[j], pid)
    decreases count - i
  {
    if i >= count then -1
    else if Owns(apps[i], pid) then i
    else FindPidFrom(apps, count, pid, i + 1)
  }

  /** find_pid: the first of the `count` registered applications whose
      positive pid is `pid`, or -1. */
  function FindPid(apps: seq<App>, count: int, pid: int): (r: int)
    requires count <= |apps|
    ensures -1 <= r < Max(count, 0)
    ensures r >= 0 ==> apps[r].pid == pid && pid > 0
    ensures r >= 0 ==> forall j :: 0 <= j < r ==> !Owns(apps[j], pid)
    ensures r == -1 <==> forall j :: 0 <= j < count ==> !Owns(apps[j], pid)
  {
    FindPidFrom(apps, count, pid, 0)
  }

  /** No pid of zero or below ever names an application. */
  lemma FindPidNonPositive(apps: seq<App>, count: int, pid: int)
    requires count <= |apps|
    requires pid <= 0
    ensures FindPid(apps, count, pid) == -1
  {
  }

  /** When the live pids of the table are distinct, find_pid finds the
      one entry that owns the pid. */
  lemma FindPidUnique(apps: seq<App>, count: int, k: nat)
    requires count <= |apps| && k < count
    requires apps[k].pid > 0
    requires forall i, j :: 0 <= i < j < count && apps[i].pid > 0 ==> apps[i].pid != apps[j].pid
    ensures FindPid(apps, count, apps[k].pid) == k
  {
  }

  /** is_application_start_time: the system has been up for at least
      start_delay seconds since the ini file was read. */
  predicate IsStartTime(a: App, uptimeNow: int, uptimeAtLoad: int)
  {
    uptimeNow - uptimeAtLoad >= a.startDelay
  }

  /** Once the start time has come it stays come. */
  lemma StartTimeStays(a: App, uptimeNow: int, later: int, uptimeAtLoad: int)
    requires uptimeNow <= later
    ensures IsStartTime(a, uptimeNow, uptimeAtLoad) ==> IsStartTime(a, later, uptimeAtLoad)
  {
  }

  /** update_heartbeat_time (and heartbeat_update_time): the last heartbeat
      is now. */
  function UpdateTime(a: App, now: int): (r: App)
    ensures r.lastHeartbeat == now
    ensures SameConfig(r, a) && r.started == a.started && r.pid == a.pid
    ensures r.firstHeartbeat == a.firstHeartbeat
  {
    a.(lastHeartbeat := now)
  }

  /** process_is_running: a positive pid whose process the system reports
      alive (or that it refuses to signal). */
  predicate IsRunning(a: App, alive: bool) { a.pid > 0 && alive }

  /** process_start as seen by the parent: `forkPid` is what fork returned
      there (negative on failure, the child's pid otherwise) and `now` the
      wall-clock time update_heartbeat_time reads. */
  function Start(a: App, forkPid: int, now: int): (r: App)
    requires forkPid != 0
    ensures SameConfig(r, a)
    ensures forkPid < 0 ==> r == a.(pid := 0)
    ensures forkPid > 0 ==> r.started && !r.firstHeartbeat && r.pid == forkPid && r.lastHeartbeat == now
    ensures Consistent(a) ==> Consistent(r)
  {
    if forkPid < 0 then a.(pid := 0)
    else UpdateTime(a.(started := true, firstHeartbeat := false, pid := forkPid), now)
  }

  /** process_kill: nothing happens without a live pid; otherwise the
      record is cleared exactly when the process was seen to terminate
      (`terminated` sums up SIGTERM, the wait and SIGKILL). */
  function Kill(a: App, terminated: bool): (r: App)
    ensures SameConfig(r, a) && r.lastHeartbeat == a.lastHeartbeat
    ensures a.pid > 0 && terminated ==> !r.started && !r.firstHeartbeat && r.pid == 0
    ensures a.pid <= 0 || !terminated ==> r == a
    ensures Consistent(a) ==> Consistent(r)
  {
    if a.pid <= 0 then a
    else if terminated then a.(started := false, firstHeartbeat := false, pid := 0)
    else a
  }

  /** The operating system's answers during one restart: whether the old
      process is alive, whether killing it succeeds, fork's result, whether
      the new process is alive after the wait, and the wall-clock readings
      at the start and after the wait. */
  datatype RestartOutcome = RestartOutcome(
    aliveBefore: bool, terminated: bool, forkPid: int, aliveAfter: bool, startClock: int, endClock: int)

  /** process_restart: kill the process when it runs, start it again, and
      refresh the heartbeat time once the new process is seen running. */
  function Restart(a: App, o: RestartOutcome): (r: App)
    requires o.forkPid != 0
    ensures SameConfig(r, a)
    ensures o.forkPid > 0 ==> r.started && !r.firstHeartbeat && r.pid == o.forkPid
    ensures o.forkPid > 0 ==> r.lastHeartbeat == (if o.aliveAfter then o.endClock else o.startClock)
    ensures o.forkPid < 0 ==> r.pid == 0 && r.lastHeartbeat == a.lastHeartbeat
    ensures o.forkPid < 0 ==>
      (r.started <==> a.started && !(IsRunning(a, o.aliveBefore) && o.terminated))
      && (r.firstHeartbeat <==> a.firstHeartbeat && !(IsRunning(a, o.aliveBefore) && o.terminated))
    ensures Consistent(a) ==> Consistent(r)
  {
    var stopped := if IsRunning(a, o.aliveBefore) then Kill(a, o.terminated) else a;
    var restarted := Start(stopped, o.forkPid, o.startClock);
    if IsRunning(restarted, o.aliveAfter) then UpdateTime(restarted, o.endClock) else restarted
  }

  /** A crashed application whose restart cannot fork stays started with
      pid 0, so the next pass finds it not running and restarts it again. */
  lemma FailedRestartStaysCrashed(a: App, o: RestartOutcome, alive: bool)
    requires o.forkPid < 0 && a.started && !IsRunning(a, o.aliveBefore)
    ensures Restart(a, o).started && Restart(a, o).pid == 0
    ensures !IsRunning(Restart(a, o), alive)
  {
  }
}

=== FILE: command.dfy ===
/** cmd.c: classification of the datagrams that reach the watchdog's UDP
    port, together with the heartbeat payload a supervised process sends
    (test_child.py builds it as "p" followed by its pid). */
module Command {
  import opened Limits
  import opened Utils

  /** net_command_type_t. */
  datatype CommandType = Heartbeat | Start | Stop | Restart | Unknown

  /** net_command_t: the command, the pid a heartbeat carries, and the
      application name a control command carries. */
  datatype NetCommand = NetCommand(kind: CommandType, pid: int, appName: seq<char>)

  /** The command cmd_parse_network starts from and returns on every
      rejected datagram. */
  const NoCommand := NetCommand(Unknown, 0, [])

  predicate IsControl(k: CommandType) { k == Start || k == Stop || k == Restart }

  /** The command type a control byte selects. */
  function ControlKind(c: char): Option<CommandType>
  {
    if c == 'a' then Some(Start)
    else if c == 'o' then Some(Stop)
    else if c == 'r' then Some(Restart)
    else None
  }

  /** The int parse_number returns for the datagram. When the datagram
      holds no digit and no '-', the source's scan runs past the buffer;
      whatever it meets there lies at or beyond `length`, so the digit loop
      adds nothing and the result is 0. */
  function PidField(s: seq<char>, length: int, wrap: bool): int
  {
    var scan := if wrap then ParseNumberAsWritten(s, length) else ParseNumber(s, length);
    if scan.Some? then scan.value.value else 0
  }

  /** cmd_parse_network(data, length) over the memory `data` points to
      (None for a null pointer). With `wrap` the pid is parsed by the
      32-bit parse_number of the source. */
  function ParseNetworkWith(data: Option<seq<char>>, length: int, wrap: bool): (r: NetCommand)
    requires data.Some? ==> length <= |data.value|
    ensures data.None? || length <= 0 ==> r == NoCommand
    ensures r.pid != 0 ==> r.kind == Heartbeat
    ensures r.kind == Unknown ==> r == NoCommand
    ensures r.kind == Heartbeat <==>
      data.Some? && length > 0 && data.value[0] == 'p' && 0 < PidField(data.value, length, wrap) < IntMax
    ensures r.kind == Heartbeat ==>
      r.pid == PidField(data.value, length, wrap) && 0 < r.pid < IntMax && r.appName == []
    ensures IsControl(r.kind) <==> data.Some? && length > 0 && ControlKind(data.value[0]) == Some(r.kind)
    ensures IsControl(r.kind) ==>
      var name := CString(data.value[1..]);
      && |r.appName| <= MaxAppNameLength - 1
      && r.appName <= name
      && (|r.appName| < MaxAppNameLength - 1 ==> r.appName == name)
  {
    if data.None? || length <= 0 then NoCommand
    else
      var s := data.value;
      if s[0] == 'p' then
        var n := PidField(s, length, wrap);
        if 0 < n < IntMax then NetCommand(Heartbeat, n, []) else NoCommand
      else if ControlKind(s[0]).Some? then
        NetCommand(ControlKind(s[0]).value, 0, StrNCopy(s[1..], MaxAppNameLength - 1))
      else
        NoCommand
  }

  /** cmd_parse_network as written: the number of the datagram wraps to
      32 bits before the range test, so a number beyond the int range can
      pass it. */
  function ParseNetworkAsWritten(data: Option<seq<char>>, length: int): (r: NetCommand)
    requires data.Some? ==> length <= |data.value|
    ensures r.kind == Heartbeat <==>
      && data.Some? && length > 0 && data.value[0] == 'p'
      && ParseNumber(data.value, length).Some?
      && 0 < Wrap32(ParseNumber(data.value, length).value.value) < IntMax
    ensures r.kind == Heartbeat ==> r.pid == Wrap32(ParseNumber(data.value, length).value.value)
  {
    if data.Some? then
      ParseNumberAsWrittenWraps(data.value, length);
      ParseNetworkWith(data, length, true)
    else
      ParseNetworkWith(data, length, true)
  }

  /** cmd_parse_network with the number of the datagram taken at its
      full value, so that only pids in (0, INT32_MAX) are accepted. */
  function ParseNetwork(data: Option<seq<char>>, length: int): (r: NetCommand)
    requires data.Some? ==> length <= |data.value|
    ensures r.kind == Heartbeat <==>
      && data.Some? && length > 0 && data.value[0] == 'p'
      && ParseNumber(data.value, length).Some?
      && 0 < ParseNumber(data.value, length).value.value < IntMax
    ensures r.kind == Heartbeat ==> r.pid == ParseNumber(data.value, length).value.value
  {
    ParseNetworkWith(data, length, false)
  }

  /** How main.c hands a received datagram over: the bytes followed by
      the terminator it writes at data[length]. */
  function ParseDatagram(bytes: seq<char>): (r: NetCommand)
    ensures r.kind == Heartbeat <==>
      && |bytes| > 0 && bytes[0] == 'p'
      && ParseNumber(bytes + [Nul], |bytes|).Some?
      && 0 < ParseNumber(bytes + [Nul], |bytes|).value.value < IntMax
    ensures r.kind == Heartbeat ==> r.pid == ParseNumber(bytes + [Nul], |bytes|).value.value
  {
    ParseNetwork(Some(bytes + [Nul]), |bytes|)
  }

  /** The datagram handed over as main.c does, with the 32-bit pid. */
  function ParseDatagramAsWritten(bytes: seq<char>): (r: NetCommand)
    ensures r.kind == Heartbeat <==>
      && |bytes| > 0 && bytes[0] == 'p'
      && ParseNumber(bytes + [Nul], |bytes|).Some?
      && 0 < Wrap32(ParseNumber(bytes + [Nul], |bytes|).value.value) < IntMax
    ensures r.kind == Heartbeat ==> r.pid == Wrap32(ParseNumber(bytes + [Nul], |bytes|).value.value)
  {
    ParseNetworkAsWritten(Some(bytes + [Nul]), |bytes|)
  }

  /** The heartbeat test_child.py sends: 'p' + str(pid). */
  function HeartbeatPayload(pid: nat): (r: seq<char>)
    ensures |r| >= 2 && r[0] == 'p'
    ensures AllDigits(r[1..]) && DigitsValue(r[1..]) == pid
  {
    DecimalValue(pid);
    assert (['p'] + Decimal(pid))[1..] == Decimal(pid);
    ['p'] + Decimal(pid)
  }

  /** The datagram of a control command for the application `name`. */
  function ControlPayload(c: char, name: seq<char>): (r: seq<char>)
    requires ControlKind(c).Some?
    ensures |r| == |name| + 1 && r[0] == c && r[1..] == name
  {
    [c] + name
  }

  /** parse_number reads back every number a heartbeat payload carries,
      and consumes exactly the payload. */
  lemma PayloadNumber(n: nat)
    ensures var s := HeartbeatPayload(n) + [Nul];
      ParseNumber(s, |s| - 1) == Some(NumberScan(n, |s| - 1))
  {
    var p := HeartbeatPayload(n);
    var s := p + [Nul];
    var length := |s| - 1;
    assert s[0] == 'p' && s[1] == p[1..][0];
    assert SkipToNumber(s, 1) == 1;
    assert SkipToNumber(s, 0) == 1;
    var r := ParseNumber(s, length);
    assert r.Some? by {
      assert IsDigit(s[1]);
    }
    var c := r.value.consumed;
    assert c == length;
    assert s[1..c] == p[1..];
  }

  /** Round trip: every pid in (0, INT32_MAX), sent the way test_child.py
      sends it, is classified as a heartbeat from that pid. */
  lemma HeartbeatRoundTrip(pid: int)
    requires 0 < pid < IntMax
    ensures ParseDatagram(HeartbeatPayload(pid)) == NetCommand(Heartbeat, pid, [])
    ensures ParseDatagramAsWritten(HeartbeatPayload(pid)) == NetCommand(Heartbeat, pid, [])
  {
    var s := HeartbeatPayload(pid) + [Nul];
    PayloadNumber(pid);
    ParseNumberAsWrittenWraps(s, |s| - 1);
  }

  /** A pid outside (0, INT32_MAX) in a full-width parse is refused. */
  lemma OutOfRangePidRefused(n: nat)
    requires n == 0 || n >= IntMax
    ensures ParseDatagram(HeartbeatPayload(n)) == NoCommand
  {
    PayloadNumber(n);
  }

  /** Round trip of the control commands: a name of at most 31
      characters without a terminator comes back unchanged. */
  lemma ControlRoundTrip(c: char, name: seq<char>)
    requires ControlKind(c).Some?
    requires |name| <= MaxAppNameLength - 1 && Nul !in name
    ensures ParseDatagram(ControlPayload(c, name)) == NetCommand(ControlKind(c).value, 0, name)
  {
    var s := ControlPayload(c, name) + [Nul];
    assert s[1..] == name + [Nul];
    CStringOf(name);
  }

  /** The parse of the source differs from the full-width parse only for
      datagrams whose number does not fit in an int. */
  lemma AsWrittenAgrees(data: Option<seq<char>>, length: int)
    requires data.Some? ==> length <= |data.value|
    requires data.Some? && ParseNumber(data.value, length).Some? ==>
      IntMin <= ParseNumber(data.value, length).value.value <= IntMax
    ensures ParseNetworkAsWritten(data, length) == ParseNetwork(data, length)
  {
    if data.Some? {
      ParseNumberAsWrittenWraps(data.value, length);
    }
  }

  /** The datagram "p4294967297" (2^32 + 1) is accepted by the source as
      a heartbeat from pid 1, while its number is no valid pid. */
  lemma WrappedPidAccepted()
    ensures ParseDatagramAsWritten(HeartbeatPayload(TwoTo32 + 1)) == NetCommand(Heartbeat, 1, [])
    ensures ParseDatagram(HeartbeatPayload(TwoTo32 + 1)) == NoCommand
  {
    var s := HeartbeatPayload(TwoTo32 + 1) + [Nul];
    PayloadNumber(TwoTo32 + 1);
    ParseNumberAsWrittenWraps(s, |s| - 1);
    Wrap32Shift(1, 1);
  }

  predicate IsPrintable(c: char) { 32 <= c as int < 127 }

  /** The printable rendering the source logs for an unknown command:
      the first min(length, 32) bytes, each kept when it lies in [32, 127)
      and shown as '.' otherwise. */
  function Printable(data: seq<char>, length: int): (r: seq<char>)
    requires length <= |data|
    ensures |r| == Max(0, Min(length, MaxAppNameLength))
    ensures forall i :: 0 <= i < |r| ==> IsPrintable(r[i])
    ensures forall i :: 0 <= i < |r| ==> (r[i] == data[i] <==> IsPrintable(data[i]))
    ensures forall i :: 0 <= i < |r| ==> (r[i] == '.' <==> !IsPrintable(data[i]) || data[i] == '.')
  {
    var n := Max(0, Min(length, MaxAppNameLength));
    seq(n, i requires 0 <= i < n => if IsPrintable(data[i]) then data[i] else '.')
  }

  /** A datagram that is printable already is logged unchanged. */
  lemma PrintableOfPrintable(data: seq<char>, length: int)
    requires 0 <= length <= |data|
    requires forall i :: 0 <= i < |data| ==> IsPrintable(data[i])
    ensures Printable(data, length) == data[..Min(length, MaxAppNameLength)]
  {
  }
}

=== FILE: config.dfy ===
/** config.c: the ini-file callback that fills the application table and
    the watchdog settings, and the older copy of it in apps.c. The ini
    tokeniser is not part of this model: a file is the sequence of
    (section, name, value) triples it hands to the callback, each a string
    without its terminator. */
module Config {
  import opened Limits
  import opened Utils
  import opened Apps

  /** MAX_REBOOT_MINUTES: one year. */
  const MaxRebootMinutes := 525600
  const AppPrefix: seq<char> := "app:"
  const MainSection: seq<char> := "processWatchdog"

  /** The periodic reboot setting and its parameters. */
  datatype RebootMode = Disabled | DailyTime(hour: int, minute: int) | Interval(minutes: int)

  /** The application table and the part of AppState_t the ini file sets. */
  datatype Settings = Settings(apps: seq<App>, count: nat, udpPort: int, reboot: RebootMode)

  datatype Entry = Entry(section: seq<char>, name: seq<char>, value: seq<char>)

  /** The settings together with the callback's static last_section. */
  datatype Parser = Parser(settings: Settings, lastSection: seq<char>)

  /** The parser after one callback and the callback's verdict (false is
      the error value 0). */
  datatype Handled = Handled(parser: Parser, ok: bool)

  /** The table has its MAX_APPS slots and the count stays within them. */
  predicate Shaped(s: Settings)
  {
    |s.apps| == MaxApps && s.count <= MaxApps
  }

  predicate AppWellFormed(a: App)
  {
    |a.name| < MaxAppNameLength && |a.cmd| < MaxAppCmdLength
    && 0 <= a.startDelay <= IntMax && 0 <= a.heartbeatDelay <= IntMax
    && 0 <= a.heartbeatInterval <= IntMax
  }

  predicate RebootWellFormed(m: RebootMode)
  {
    (m.Interval? ==> 60 <= m.minutes <= MaxRebootMinutes)
    && (m.DailyTime? ==> 0 <= m.hour <= 23 && 0 <= m.minute <= 59)
  }

  /** What every callback keeps: at most MAX_APPS applications with non-empty
      names that fit their buffers, a port in [1, 65535], delays and
      intervals in [0, INT_MAX], and a reboot setting within its bounds. */
  predicate WellFormed(s: Settings)
  {
    Shaped(s) && 1 <= s.udpPort <= 65535 && RebootWellFormed(s.reboot)
    && (forall i :: 0 <= i < MaxApps ==> AppWellFormed(s.apps[i]))
    && (forall i :: 0 <= i < s.count ==> s.apps[i].name != [])
  }

  // ---------------------------------------------------------------------
  // periodic_reboot

  /** Minutes per unit of the interval form: hours, days, weeks and
      30-day months; 0 for any other character. */
  function UnitMinutes(c: char): (m: int)
    ensures m == 0 || m >= 60
  {
    if c == 'h' || c == 'H' then 60
    else if c == 'd' || c == 'D' then 24 * 60
    else if c == 'w' || c == 'W' then 7 * 24 * 60
    else if c == 'm' || c == 'M' then 30 * 24 * 60
    else 0
  }

  /** sscanf(value, "%d:%d", &hour, &min) == 2. */
  function ScanTime(v: seq<char>): Option<(int, int)>
  {
    match ScanInt(v, 0)
    case None => None
    case Some((h, e)) =>
      if e < |v| && v[e] == ':' then
        match ScanInt(v, e + 1)
        case None => None
        case Some((m, _)) => Some((h, m))
      else None
  }

  /** The periodic_reboot value: a daily time "H:M", or a count with an
      optional unit (days when absent); anything else disables the reboot. */
  function ParseReboot(v: seq<char>): (r: RebootMode)
    ensures RebootWellFormed(r)
    ensures r.DailyTime? <==> ScanTime(v).Some? && 0 <= ScanTime(v).value.0 <= 23 && 0 <= ScanTime(v).value.1 <= 59
    ensures r.DailyTime? ==> ScanTime(v) == Some((r.hour, r.minute))
    ensures r.Interval? ==> ScanTime(v).None? && StrToL(v).end > 0 && StrToL(v).value > 0
  {
    match ScanTime(v)
    case Some((h, m)) =>
      if 0 <= h <= 23 && 0 <= m <= 59 then DailyTime(h, m) else Disabled
    case None =>
      var t := StrToL(v);
      if t.end == 0 then Disabled
      else
        var unit := if t.end < |v| && v[t.end] != Nul then v[t.end] else 'd';
        var multiplier := UnitMinutes(unit);
        if multiplier > 0 && t.value > 0 then
          if t.value > LongMax / multiplier then Disabled
          else if t.value * multiplier <= MaxRebootMinutes then Interval(t.value * multiplier)
          else Disabled
        else Disabled
  }

  /** "H:M" reads back as the pair (H, M). */
  lemma ScanTimeOf(h: int, m: int)
    ensures ScanTime(SignedDecimal(h) + [':'] + SignedDecimal(m)) == Some((h, m))
  {
    var a := SignedDecimal(h);
    var b := SignedDecimal(m);
    var v := a + [':'] + b;
    var k := |a|;
    assert v[0..k] == a;
    assert v[k] == ':';
    ScanSignedDecimalAt(v, 0, h);
    assert v[k + 1..k + 1 + |b|] == b;
    ScanSignedDecimalAt(v, k + 1, m);
  }

  /** "H:M" within range is a daily reboot at H:M. */
  lemma RebootDaily(h: int, m: int)
    requires 0 <= h <= 23 && 0 <= m <= 59
    ensures ParseReboot(SignedDecimal(h) + [':'] + SignedDecimal(m)) == DailyTime(h, m)
  {
    ScanTimeOf(h, m);
  }

  /** "H:M" with either field out of range disables the reboot. */
  lemma RebootDailyOutOfRange(h: int, m: int)
    requires !(0 <= h <= 23 && 0 <= m <= 59)
    ensures ParseReboot(SignedDecimal(h) + [':'] + SignedDecimal(m)) == Disabled
  {
    ScanTimeOf(h, m);
  }

  /** A count followed by a unit character: the interval in minutes when it
      is positive and at most a year, otherwise no reboot. */
  lemma RebootInterval(n: int, c: char)
    requires UnitMinutes(c) > 0
    ensures var minutes := n * UnitMinutes(c);
      ParseReboot(SignedDecimal(n) + [c])
        == if n > 0 && minutes <= MaxRebootMinutes then Interval(minutes) else Disabled
  {
    var v := SignedDecimal(n) + [c];
    ScanSignedDecimal(n, [c]);
    assert ScanTime(v).None?;
    var t := StrToL(v);
    assert t.end == |SignedDecimal(n)| && v[t.end] == c;
    if n > LongMax {
      assert t.value == LongMax;
      assert LongMax / UnitMinutes(c) < LongMax;
    }
  }

  /** A count without a unit counts days. */
  lemma RebootDays(n: int)
    ensures ParseReboot(SignedDecimal(n))
      == if n > 0 && n * 1440 <= MaxRebootMinutes then Interval(n * 1440) else Disabled
  {
    var v := SignedDecimal(n);
    ScanSignedDecimal(n, []);
    assert v + [] == v;
    assert ScanTime(v).None?;
    var t := StrToL(v);
    assert t.end == |v|;
    if n > LongMax {
      assert t.value == LongMax;
    }
  }

  /** A count followed by a character that is neither a unit, a digit nor
      ':' disables the reboot; so does a value without a leading number. */
  lemma RebootUnknownUnit(n: int, c: char)
    requires UnitMinutes(c) == 0 && !IsDigit(c) && c != ':' && c != Nul
    ensures ParseReboot(SignedDecimal(n) + [c]) == Disabled
  {
    ScanSignedDecimal(n, [c]);
  }

  lemma RebootNeedsNumber(v: seq<char>)
    requires ScanInt(v, 0).None?
    ensures ParseReboot(v) == Disabled
  {
  }

  // ---------------------------------------------------------------------
  // The callback

  predicate IsAppSection(section: seq<char>)
  {
    |section| >= |AppPrefix| && section[..|AppPrefix|] == AppPrefix
  }

  function AppNameOf(section: seq<char>): seq<char>
    requires IsAppSection(section)
  {
    section[|AppPrefix|..]
  }

  function FindNameFrom(apps: seq<App>, count: nat, name: seq<char>, i: nat): (r: int)
    requires count <= |apps|
    ensures r == -1 || i <= r < count
    ensures r >= 0 ==> apps[r].name == name && forall j :: i <= j < r ==> apps[j].name != name
    ensures r == -1 <==> forall j :: i <= j < count ==> apps[j].name != name
    decreases count - i
  {
    if i >= count then -1
    else if apps[i].name == name then i
    else FindNameFrom(apps, count, name, i + 1)
  }

  /** The index of the first registered application with this name, or -1. */
  function FindName(apps: seq<App>, count: nat, name: seq<char>): (r: int)
    requires count <= |apps|
    ensures -1 <= r < count
    ensures r >= 0 ==> apps[r].name == name && forall j :: 0 <= j < r ==> apps[j].name != name
    ensures r == -1 <==> forall j :: 0 <= j < count ==> apps[j].name != name
  {
    FindNameFrom(apps, count, name, 0)
  }

  /** Append an application named by (at most 31 characters of) `name`. */
  function Register(s: Settings, name: seq<char>): (r: Settings)
    requires Shaped(s) && s.count < MaxApps
    requires CString(name) != []
    ensures Shaped(r) && r.count == s.count + 1
    ensures r.apps[s.count].name == StrNCopy(name, MaxAppNameLength - 1) != []
    ensures forall i :: 0 <= i < MaxApps && i != s.count ==> r.apps[i] == s.apps[i]
    ensures WellFormed(s) ==> WellFormed(r)
  {
    var a := s.apps[s.count].(name := StrNCopy(name, MaxAppNameLength - 1));
    s.(apps := s.apps[s.count := a], count := s.count + 1)
  }

  /** Replace application `i`. */
  function Put(s: Settings, i: nat, a: App): (r: Settings)
    requires Shaped(s) && i < MaxApps
    ensures Shaped(r) && r.count == s.count && r.udpPort == s.udpPort && r.reboot == s.reboot
    ensures r.apps == s.apps[i := a]
  {
    s.(apps := s.apps[i := a])
  }

  lemma MainNotApp()
    ensures !IsAppSection(MainSection)
  {
    assert MainSection[..|AppPrefix|][0] != AppPrefix[0];
  }

  /** Whether an entry is a periodic_reboot key in the watchdog section. */
  predicate IsRebootEntry(e: Entry)
  {
    e.section == MainSection && e.name == "periodic_reboot"
  }

  /** Whether an entry is the udp_port key in the watchdog section. */
  predicate IsPortEntry(e: Entry)
  {
    e.section == MainSection && e.name == "udp_port"
  }

  /** The integer keys of an application section. */
  predicate IsDelayKey(name: seq<char>)
  {
    name == "start_delay" || name == "heartbeat_delay" || name == "heartbeat_interval"
  }

  /** Store an integer key's value in an application record. */
  function SetDelay(a: App, name: seq<char>, v: int): (r: App)
    requires IsDelayKey(name)
    ensures name == "start_delay" ==> r == a.(startDelay := v)
    ensures name == "heartbeat_delay" ==> r == a.(heartbeatDelay := v)
    ensures name == "heartbeat_interval" ==> r == a.(heartbeatInterval := v)
  {
    if name == "start_delay" then a.(startDelay := v)
    else if name == "heartbeat_delay" then a.(heartbeatDelay := v)
    else a.(heartbeatInterval := v)
  }

  /** The key-value part of the callback (after the section bookkeeping):
      the new settings and the verdict. `rebootKey` says whether the
      periodic_reboot key is known (the apps.c copy predates it). */
  function Assign(s: Settings, e: Entry, rebootKey: bool): (r: (Settings, bool))
    requires Shaped(s)
    ensures Shaped(r.0) && r.0.count == s.count
    ensures WellFormed(s) ==> WellFormed(r.0)
    ensures r.0.reboot == (if rebootKey && IsRebootEntry(e) then ParseReboot(e.value) else s.reboot)
    ensures r.0.udpPort
      == (if IsPortEntry(e) && ParseInt(e.value, 1, 65535).Some? then ParseInt(e.value, 1, 65535).value else s.udpPort)
    ensures forall i :: 0 <= i < s.count ==> r.0.apps[i].name == s.apps[i].name
  {
    if e.section == MainSection then
      if e.name == "udp_port" then
        match ParseInt(e.value, 1, 65535)
        case None => (s, false)
        case Some(port) => (s.(udpPort := port), true)
      else if rebootKey && e.name == "periodic_reboot" then (s.(reboot := ParseReboot(e.value)), true)
      else (s, true)
    else
      var index := if IsAppSection(e.section) then FindName(s.apps, s.count, AppNameOf(e.section)) else -1;
      if index < 0 then (s, true)
      else
        var a := s.apps[index];
        if IsDelayKey(e.name) then
          match ParseInt(e.value, 0, IntMax)
          case None => (s, false)
          case Some(v) => (Put(s, index, SetDelay(a, e.name, v)), true)
        else if e.name == "cmd" then
          (Put(s, index, a.(cmd := StrNCopy(e.value, MaxAppCmdLength - 1))), |CString(e.value)| < MaxAppCmdLength)
        else (s, true)
  }

  /** Whether the callback sees a new section: the entry's section differs
      from the remembered one. */
  predicate NewSection(p: Parser, e: Entry) { e.section != p.lastSection }

  /** Whether a new section registers an application: an "app:" section
      while the table has room. */
  predicate Registers(p: Parser, e: Entry)
  {
    NewSection(p, e) && IsAppSection(e.section) && p.settings.count < MaxApps
  }

  /** Whether the callback fails at the section header: a new "app:"
      section with room in the table but an empty name. */
  predicate EmptyName(p: Parser, e: Entry)
  {
    Registers(p, e) && CString(AppNameOf(e.section)) == []
  }

  /** The section bookkeeping of the callback: register a new application
      section while there is room and remember the section (only 31
      characters of it when `truncated`). None is the empty-name error. */
  function Enter(p: Parser, e: Entry, truncated: bool): (r: Option<Parser>)
    requires Shaped(p.settings)
    ensures r.None? <==> EmptyName(p, e)
    ensures r.Some? ==> Shaped(r.value.settings)
    ensures r.Some? ==> (WellFormed(p.settings) ==> WellFormed(r.value.settings))
    ensures r.Some? ==> r.value.settings.count == p.settings.count + (if Registers(p, e) then 1 else 0)
    ensures r.Some? && !NewSection(p, e) ==> r.value == p
    ensures r.Some? && NewSection(p, e) ==>
      r.value.lastSection == (if truncated then StrNCopy(e.section, MaxAppNameLength - 1) else e.section)
  {
    if !NewSection(p, e) then Some(p)
    else if EmptyName(p, e) then None
    else
      var s := if Registers(p, e) then Register(p.settings, AppNameOf(e.section)) else p.settings;
      Some(Parser(s, if truncated then StrNCopy(e.section, MaxAppNameLength - 1) else e.section))
  }

  /** config_ini_handler (`rebootKey`) and the handler of apps.c (not
      `rebootKey`). `truncated` keeps only 31 characters of the section in
      last_section, as both callbacks do; without it the whole section is
      remembered. */
  function HandlerWith(p: Parser, e: Entry, rebootKey: bool, truncated: bool): (r: Handled)
    requires Shaped(p.settings)
    ensures Shaped(r.parser.settings)
    ensures WellFormed(p.settings) ==> WellFormed(r.parser.settings)
    ensures EmptyName(p, e) ==> r == Handled(p, false)
    ensures !EmptyName(p, e) ==> r.parser.settings.count == p.settings.count + (if Registers(p, e) then 1 else 0)
    ensures !EmptyName(p, e) ==> r.parser.lastSection == Enter(p, e, truncated).value.lastSection
  {
    match Enter(p, e, truncated)
    case None => Handled(p, false)
    case Some(q) =>
      var a := Assign(q.settings, e, rebootKey);
      Handled(Parser(a.0, q.lastSection), a.1)
  }

  /** config_ini_handler as written. */
  function ConfigHandlerAsWritten(p: Parser, e: Entry): Handled
    requires Shaped(p.settings)
  {
    HandlerWith(p, e, true, true)
  }

  /** config_ini_handler remembering the whole section name. */
  function ConfigHandler(p: Parser, e: Entry): Handled
    requires Shaped(p.settings)
  {
    HandlerWith(p, e, true, false)
  }

  /** The udp_port key: accepted exactly when it parses within [1, 65535],
      and then it is the port; a rejected value leaves the port. */
  lemma PortKey(p: Parser, e: Entry, rebootKey: bool, truncated: bool)
    requires Shaped(p.settings) && IsPortEntry(e)
    ensures var r := HandlerWith(p, e, rebootKey, truncated);
      (r.ok <==> ParseInt(e.value, 1, 65535).Some?)
      && r.parser.settings.udpPort == (if r.ok then ParseInt(e.value, 1, 65535).value else p.settings.udpPort)
  {
    MainNotApp();
  }

  /** An integer key of a registered application: accepted exactly when it
      parses within [0, INT_MAX], and then stored in the first application
      of that name and nowhere else; a rejected value changes nothing. */
  lemma DelayKey(p: Parser, e: Entry, rebootKey: bool, truncated: bool, k: nat)
    requires Shaped(p.settings) && !NewSection(p, e)
    requires IsAppSection(e.section) && IsDelayKey(e.name)
    requires k == FindName(p.settings.apps, p.settings.count, AppNameOf(e.section))
    ensures var r := HandlerWith(p, e, rebootKey, truncated);
      (r.ok <==> ParseInt(e.value, 0, IntMax).Some?)
      && r.parser.settings.apps
        == (if r.ok then p.settings.apps[k := SetDelay(p.settings.apps[k], e.name, ParseInt(e.value, 0, IntMax).value)]
            else p.settings.apps)
  {
    MainNotApp();
  }

  /** The cmd key of a registered application: the first 255 characters are
      stored either way, and the key is an error when the value is longer. */
  lemma CmdKey(p: Parser, e: Entry, rebootKey: bool, truncated: bool, k: nat)
    requires Shaped(p.settings) && !NewSection(p, e)
    requires IsAppSection(e.section) && e.name == "cmd"
    requires k == FindName(p.settings.apps, p.settings.count, AppNameOf(e.section))
    ensures var r := HandlerWith(p, e, rebootKey, truncated);
      (r.ok <==> |CString(e.value)| < MaxAppCmdLength)
      && r.parser.settings.apps[k].cmd == StrNCopy(e.value, MaxAppCmdLength - 1)
  {
    MainNotApp();
  }

  /** Keys of a section that names no registered application are ignored. */
  lemma UntrackedSectionIgnored(p: Parser, e: Entry, rebootKey: bool, truncated: bool)
    requires Shaped(p.settings) && !NewSection(p, e) && e.section != MainSection
    requires !IsAppSection(e.section) || FindName(p.settings.apps, p.settings.count, AppNameOf(e.section)) == -1
    ensures HandlerWith(p, e, rebootKey, truncated) == Handled(p, true)
  {
  }

  // ---------------------------------------------------------------------
  // Whole files

  /** The parser after a sequence of callbacks and the index of the first
      entry the callback rejected (the line ini_parse reports). */
  datatype Parsed = Parsed(parser: Parser, firstError: Option<nat>)

  function Run(p: Parser, entries: seq<Entry>, rebootKey: bool, truncated: bool): (r: Parsed)
    requires Shaped(p.settings)
    ensures Shaped(r.parser.settings)
    ensures WellFormed(p.settings) ==> WellFormed(r.parser.settings)
    ensures r.parser.settings.count >= p.settings.count
    ensures r.firstError.Some? ==> r.firstError.value < |entries|
    decreases |entries|
  {
    if entries == [] then Parsed(p, None)
    else
      var h := HandlerWith(p, entries[0], rebootKey, truncated);
      var rest := Run(h.parser, entries[1..], rebootKey, truncated);
      var err := if !h.ok then Some(0) else if rest.firstError.Some? then Some(rest.firstError.value + 1) else None;
      Parsed(rest.parser, err)
  }

  /** The state config_parse_file starts from: a zeroed table, no
      applications, the default port and no periodic reboot. */
  const Defaults: Settings :=
    Settings([EmptyApp, EmptyApp, EmptyApp, EmptyApp, EmptyApp, EmptyApp], 0, DefaultUdpPort, Disabled)

  lemma DefaultsWellFormed()
    ensures WellFormed(Defaults)
  {
  }

  /** config_parse_file: the settings start from the defaults whatever the
      previous file said; `lastSection` is the callback's static memory
      left from the previous parse. The callback keeps 31 characters of
      the section, as config_ini_handler does. */
  function ParseFile(entries: seq<Entry>, lastSection: seq<char>): (r: Parsed)
    ensures WellFormed(r.parser.settings)
    ensures r.parser.settings.count <= MaxApps
    ensures entries == [] ==> r.parser.settings == Defaults
  {
    Run(Parser(Defaults, lastSection), entries, true, true)
  }

  /** read_ini_file: the table, the count and the port are reset as
      config_parse_file resets them, but periodic_reboot is not written, so
      it keeps the value `prior` it had before the call. The apps.c
      callback knows no periodic_reboot key and also keeps 31 characters of
      the section. */
  function ReadIniFile(entries: seq<Entry>, lastSection: seq<char>, prior: RebootMode): (r: Parsed)
    ensures RebootWellFormed(prior) ==> WellFormed(r.parser.settings)
    ensures entries == [] ==> r.parser.settings == Defaults.(reboot := prior)
  {
    Run(Parser(Defaults.(reboot := prior), lastSection), entries, false, true)
  }

  /** The last periodic_reboot key decides the reboot setting. */
  lemma {:induction false} LastRebootWins(p: Parser, entries: seq<Entry>, truncated: bool, k: nat)
    requires Shaped(p.settings)
    requires k < |entries| && IsRebootEntry(entries[k])
    requires forall j :: k < j < |entries| ==> !IsRebootEntry(entries[j])
    ensures Run(p, entries, true, truncated).parser.settings.reboot == ParseReboot(entries[k].value)
    decreases |entries|
  {
    var h := HandlerWith(p, entries[0], true, truncated);
    if k == 0 {
      assert h.parser.settings.reboot == ParseReboot(entries[0].value);
      NoRebootKeepsMode(h.parser, entries[1..], true, truncated);
    } else {
      LastRebootWins(h.parser, entries[1..], truncated, k - 1);
    }
  }

  /** Without a periodic_reboot key (or with a callback that does not know
      it) the reboot setting stays as it was. */
  lemma {:induction false} NoRebootKeepsMode(p: Parser, entries: seq<Entry>, rebootKey: bool, truncated: bool)
    requires Shaped(p.settings)
    requires rebootKey ==> forall j :: 0 <= j < |entries| ==> !IsRebootEntry(entries[j])
    ensures Run(p, entries, rebootKey, truncated).parser.settings.reboot == p.settings.reboot
    decreases |entries|
  {
    if entries != [] {
      var h := HandlerWith(p, entries[0], rebootKey, truncated);
      assert rebootKey ==> !IsRebootEntry(entries[0]);
      NoRebootKeepsMode(h.parser, entries[1..], rebootKey, truncated);
    }
  }

  /** read_ini_file leaves the periodic reboot as it was: it neither resets
      nor sets it. */
  lemma ReadIniFileNoReboot(entries: seq<Entry>, lastSection: seq<char>, prior: RebootMode)
    ensures ReadIniFile(entries, lastSection, prior).parser.settings.reboot == prior
  {
    NoRebootKeepsMode(Parser(Defaults.(reboot := prior), lastSection), entries, false, true);
  }

  /** The part of the parser the apps.c callback knows about. */
  function WithoutReboot(p: Parser): Parser
  {
    p.(settings := p.settings.(reboot := Disabled))
  }

  lemma AssignWithoutReboot(s: Settings, t: Settings, e: Entry)
    requires Shaped(s) && t == s.(reboot := t.reboot)
    ensures Assign(t, e, false).1 == Assign(s, e, true).1
    ensures Assign(t, e, false).0.(reboot := Disabled) == Assign(s, e, true).0.(reboot := Disabled)
  {
  }

  /** One callback of each kind on parsers that differ only in the reboot
      setting. */
  lemma HandlerWithoutReboot(p: Parser, q: Parser, e: Entry, truncated: bool)
    requires Shaped(p.settings) && WithoutReboot(q) == WithoutReboot(p)
    ensures HandlerWith(q, e, false, truncated).ok == HandlerWith(p, e, true, truncated).ok
    ensures WithoutReboot(HandlerWith(q, e, false, truncated).parser) == WithoutReboot(HandlerWith(p, e, true, truncated).parser)
  {
    assert Registers(q, e) == Registers(p, e);
    if !EmptyName(p, e) {
      var ep := Enter(p, e, truncated).value;
      var eq := Enter(q, e, truncated).value;
      assert WithoutReboot(eq) == WithoutReboot(ep);
      AssignWithoutReboot(ep.settings, eq.settings, e);
    }
  }

  /** The two callbacks agree on everything but the reboot setting. */
  lemma {:induction false} CallbacksAgree(p: Parser, q: Parser, entries: seq<Entry>, truncated: bool)
    requires Shaped(p.settings) && WithoutReboot(q) == WithoutReboot(p)
    ensures Run(q, entries, false, truncated).firstError == Run(p, entries, true, truncated).firstError
    ensures WithoutReboot(Run(q, entries, false, truncated).parser) == WithoutReboot(Run(p, entries, true, truncated).parser)
    decreases |entries|
  {
    if entries != [] {
      var e := entries[0];
      HandlerWithoutReboot(p, q, e, truncated);
      CallbacksAgree(HandlerWith(p, e, true, truncated).parser, HandlerWith(q, e, false, truncated).parser, entries[1..], truncated);
    }
  }

  /** ParseFile and ReadIniFile read the same table and port. */
  lemma ParseFileAgreesWithReadIniFile(entries: seq<Entry>, lastSection: seq<char>, prior: RebootMode)
    ensures var a := ParseFile(entries, lastSection);
      var b := ReadIniFile(entries, lastSection, prior);
      b.firstError == a.firstError && b.parser.settings.apps == a.parser.settings.apps
      && b.parser.settings.count == a.parser.settings.count
      && b.parser.settings.udpPort == a.parser.settings.udpPort
  {
    CallbacksAgree(Parser(Defaults, lastSection), Parser(Defaults.(reboot := prior), lastSection), entries, true);
    var a := ParseFile(entries, lastSection).parser;
    var b := ReadIniFile(entries, lastSection, prior).parser;
    assert WithoutReboot(a).settings == WithoutReboot(b).settings;
  }

  // ---------------------------------------------------------------------
  // Remembering the section

  /** As written: the second key of an "app:" section whose name has 28 or
      more characters registers the application again, because the section
      no longer fits the 31 characters kept of it. */
  lemma LongSectionRegisteredTwice(p: Parser, name: seq<char>, k1: seq<char>, v1: seq<char>, k2: seq<char>, v2: seq<char>)
    requires Shaped(p.settings) && p.settings.count + 2 <= MaxApps
    requires |AppPrefix + name| >= MaxAppNameLength && Nul !in name
    requires p.lastSection != AppPrefix + name
    ensures var section := AppPrefix + name;
      Run(p, [Entry(section, k1, v1), Entry(section, k2, v2)], true, true).parser.settings.count
        == p.settings.count + 2
  {
    var section := AppPrefix + name;
    var e1 := Entry(section, k1, v1);
    var e2 := Entry(section, k2, v2);
    assert AppNameOf(section) == name;
    CStringPlain(name);
    assert Registers(p, e1) && !EmptyName(p, e1);
    var h1 := HandlerWith(p, e1, true, true);
    assert |h1.parser.lastSection| < MaxAppNameLength;
    assert Registers(h1.parser, e2) && !EmptyName(h1.parser, e2);
    RunPair(p, e1, e2, true, true);
  }

  /** The same through config_parse_file: a file with two keys under such
      a section yields two applications of that name. */
  lemma ParseFileRegistersLongSectionTwice(name: seq<char>, lastSection: seq<char>,
                                           k1: seq<char>, v1: seq<char>, k2: seq<char>, v2: seq<char>)
    requires |AppPrefix + name| >= MaxAppNameLength && Nul !in name
    requires lastSection != AppPrefix + name
    ensures var section := AppPrefix + name;
      ParseFile([Entry(section, k1, v1), Entry(section, k2, v2)], lastSection).parser.settings.count == 2
  {
    LongSectionRegisteredTwice(Parser(Defaults, lastSection), name, k1, v1, k2, v2);
  }

  /** Two callbacks in a row. */
  lemma RunPair(p: Parser, e1: Entry, e2: Entry, rebootKey: bool, truncated: bool)
    requires Shaped(p.settings)
    ensures Run(p, [e1, e2], rebootKey, truncated).parser
      == HandlerWith(HandlerWith(p, e1, rebootKey, truncated).parser, e2, rebootKey, truncated).parser
  {
    var h1 := HandlerWith(p, e1, rebootKey, truncated);
    assert [e1, e2][1..] == [e2];
    assert Run(p, [e1, e2], rebootKey, truncated).parser == Run(h1.parser, [e2], rebootKey, truncated).parser;
    var h2 := HandlerWith(h1.parser, e2, rebootKey, truncated);
    assert [e2][1..] == [];
    assert Run(h1.parser, [e2], rebootKey, truncated).parser == Run(h2.parser, [], rebootKey, truncated).parser;
  }

  /** A string without a terminator is its own C string. */
  lemma {:induction false} CStringPlain(s: seq<char>)
    requires Nul !in s
    ensures CString(s) == s
  {
    if s != [] {
      assert Nul !in s[1..] by { assert forall c :: c in s[1..] ==> c in s; }
      CStringPlain(s[1..]);
      assert s == [s[0]] + s[1..];
    }
  }

  /** Remembering the whole section, the keys of a section already seen
      register nothing more. */
  lemma {:induction false} SeenSectionRegistersNothing(p: Parser, entries: seq<Entry>, rebootKey: bool)
    requires Shaped(p.settings)
    requires forall j :: 0 <= j < |entries| ==> entries[j].section == p.lastSection
    ensures Run(p, entries, rebootKey, false).parser.settings.count == p.settings.count
    decreases |entries|
  {
    if entries != [] {
      var h := HandlerWith(p, entries[0], rebootKey, false);
      SeenSectionRegistersNothing(h.parser, entries[1..], rebootKey);
    }
  }

  /** Remembering the whole section, a run of keys of one section registers
      at most one application. */
  lemma {:induction false} SectionRegisteredOnce(p: Parser, entries: seq<Entry>, rebootKey: bool, section: seq<char>)
    requires Shaped(p.settings)
    requires forall j :: 0 <= j < |entries| ==> entries[j].section == section
    ensures Run(p, entries, rebootKey, false).parser.settings.count <= p.settings.count + 1
    decreases |entries|
  {
    if entries != [] {
      var h := HandlerWith(p, entries[0], rebootKey, false);
      if h.parser.lastSection == section {
        SeenSectionRegistersNothing(h.parser, entries[1..], rebootKey);
      } else {
        assert h.parser.settings.count == p.settings.count;
        SectionRegisteredOnce(h.parser, entries[1..], rebootKey, section);
      }
    }
  }

  /** A section that fits in last_section is remembered whole. */
  lemma ShortSectionStep(p: Parser, e: Entry, rebootKey: bool)
    requires Shaped(p.settings)
    requires |e.section| < MaxAppNameLength && Nul !in e.section
    ensures HandlerWith(p, e, rebootKey, true) == HandlerWith(p, e, rebootKey, false)
  {
    CStringPlain(e.section);
    assert StrNCopy(e.section, MaxAppNameLength - 1) == e.section;
    assert Enter(p, e, true) == Enter(p, e, false);
  }

  /** Truncating last_section is harmless when every section fits in it. */
  lemma {:induction false} ShortSectionsAgree(p: Parser, entries: seq<Entry>, rebootKey: bool)
    requires Shaped(p.settings)
    requires forall j :: 0 <= j < |entries| ==> |entries[j].section| < MaxAppNameLength && Nul !in entries[j].section
    ensures Run(p, entries, rebootKey, true) == Run(p, entries, rebootKey, false)
    decreases |entries|
  {
    if entries != [] {
      ShortSectionStep(p, entries[0], rebootKey);
      var h := HandlerWith(p, entries[0], rebootKey, false);
      ShortSectionsAgree(h.parser, entries[1..], rebootKey);
    }
  }

  /** config_parse_file as written reads a file whose sections all fit in
      31 characters exactly as the corrected callback does, and so
      registers each application section at most once. */
  lemma ParseFileShortSections(entries: seq<Entry>, lastSection: seq<char>, section: seq<char>)
    requires forall j :: 0 <= j < |entries| ==> |entries[j].section| < MaxAppNameLength && Nul !in entries[j].section
    ensures ParseFile(entries, lastSection) == Run(Parser(Defaults, lastSection), entries, true, false)
    ensures (forall j :: 0 <= j < |entries| ==> entries[j].section == section) ==>
      ParseFile(entries, lastSection).parser.settings.count <= 1
  {
    ShortSectionsAgree(Parser(Defaults, lastSection), entries, true);
    if forall j :: 0 <= j < |entries| ==> entries[j].section == section {
      SectionRegisteredOnce(Parser(Defaults, lastSection), entries, true, section);
    }
  }
}

=== FILE: filecmd.dfy ===
/** filecmd.c: commands given to the watchdog by creating files. The
    file system is the set of names of the files that exist. */
module FileCmd {
  import opened Limits
  import opened Utils

  /** The names of the files that exist in the working directory. */
  type Files = set<seq<char>>

  /** action_t. */
  datatype Action = StartApp | StopApp | RestartApp

  /** prefixes[]. */
  function Prefix(a: Action): seq<char>
  {
    match a
    case StartApp => "start"
    case StopApp => "stop"
    case RestartApp => "restart"
  }

  /** FILECMD_STOPAPP, FILECMD_RESTARTAPP and FILECMD_REBOOT. */
  const WdtStop: seq<char> := "wdtstop"
  const WdtRestart: seq<char> := "wdtrestart"
  const WdtReboot: seq<char> := "wdtreboot"

  /** get_file_name: the prefix of the action followed by the application
      name (a string of at most 31 characters, as the name buffer holds),
      all lower-cased. */
  function FileName(a: Action, appName: seq<char>): (r: seq<char>)
    requires |appName| < MaxAppNameLength
    ensures |r| == |Prefix(a)| + |appName|
    ensures r[..|Prefix(a)|] == Prefix(a)
    ensures forall i :: 0 <= i < |appName| ==> r[|Prefix(a)| + i] == LowerChar(appName[i])
  {
    ToLowerAppend(Prefix(a), appName);
    ToLowerOfLower(Prefix(a));
    ToLower(Prefix(a) + appName)
  }

  /** Two application names give the same command file exactly when they
      differ only in letter case. */
  lemma FileNameIgnoresCase(a: Action, n1: seq<char>, n2: seq<char>)
    requires |n1| < MaxAppNameLength && |n2| < MaxAppNameLength
    ensures FileName(a, n1) == FileName(a, n2) <==> EqualIgnoringCase(n1, n2)
  {
    var p := Prefix(a);
    ToLowerAppend(p, n1);
    ToLowerAppend(p, n2);
    ToLowerEqualIff(n1, n2);
    if FileName(a, n1) == FileName(a, n2) {
      assert ToLower(n1) == FileName(a, n1)[|p|..];
      assert ToLower(n2) == FileName(a, n2)[|p|..];
    }
  }

  /** Command files of different actions never coincide, whatever the
      application names: the prefixes already differ. */
  lemma FileNamesOfActionsDiffer(a1: Action, a2: Action, n1: seq<char>, n2: seq<char>)
    requires |n1| < MaxAppNameLength && |n2| < MaxAppNameLength
    requires a1 != a2
    ensures FileName(a1, n1) != FileName(a2, n2)
  {
    var f1 := FileName(a1, n1);
    var f2 := FileName(a2, n2);
    assert f1[..|Prefix(a1)|] == Prefix(a1);
    assert f2[..|Prefix(a2)|] == Prefix(a2);
    if a1 == RestartApp || a2 == RestartApp {
      assert f1[0] != f2[0];
    } else {
      assert f1[2] != f2[2];
    }
  }

  /** No application command file is one of the watchdog's own. */
  lemma FileNameNotGlobal(a: Action, n: seq<char>)
    requires |n| < MaxAppNameLength
    ensures FileName(a, n) != WdtStop && FileName(a, n) != WdtRestart && FileName(a, n) != WdtReboot
  {
    var f := FileName(a, n);
    assert f[..|Prefix(a)|] == Prefix(a);
    assert f[0] != 'w';
  }

  /** filecmd_start, filecmd_stop and filecmd_restart. */
  predicate Query(files: Files, a: Action, appName: seq<char>)
    requires |appName| < MaxAppNameLength
  {
    FileName(a, appName) in files
  }

  /** filecmd_remove_*: delete the command file when it exists. */
  function Remove(files: Files, a: Action, appName: seq<char>): (r: Files)
    requires |appName| < MaxAppNameLength
    ensures !Query(r, a, appName)
    ensures r == files - {FileName(a, appName)}
    ensures !Query(files, a, appName) ==> r == files
  {
    if Query(files, a, appName) then files - {FileName(a, appName)} else files
  }

  /** filecmd_create_*: create the command file when it does not exist. */
  function Create(files: Files, a: Action, appName: seq<char>): (r: Files)
    requires |appName| < MaxAppNameLength
    ensures Query(r, a, appName)
    ensures r == files + {FileName(a, appName)}
    ensures Query(files, a, appName) ==> r == files
  {
    if !Query(files, a, appName) then files + {FileName(a, appName)} else files
  }

  lemma RemoveIdempotent(files: Files, a: Action, appName: seq<char>)
    requires |appName| < MaxAppNameLength
    ensures Remove(Remove(files, a, appName), a, appName) == Remove(files, a, appName)
  {
  }

  lemma CreateIdempotent(files: Files, a: Action, appName: seq<char>)
    requires |appName| < MaxAppNameLength
    ensures Create(Create(files, a, appName), a, appName) == Create(files, a, appName)
  {
  }

  /** Removing one command file leaves the other actions' commands for any
      application as they were. */
  lemma RemoveKeepsOtherActions(files: Files, a: Action, n: seq<char>, b: Action, m: seq<char>)
    requires |n| < MaxAppNameLength && |m| < MaxAppNameLength
    requires a != b
    ensures Query(Remove(files, a, n), b, m) <==> Query(files, b, m)
  {
    FileNamesOfActionsDiffer(a, b, n, m);
  }

  /** Creating a missing command file and removing it again restores the
      file set. */
  lemma CreateThenRemove(files: Files, a: Action, appName: seq<char>)
    requires |appName| < MaxAppNameLength
    requires !Query(files, a, appName)
    ensures Remove(Create(files, a, appName), a, appName) == files
  {
  }

  /** filecmd_exists: reports whether the file exists, and consumes it. */
  function Consume(files: Files, name: seq<char>): (r: (bool, Files))
    ensures r.0 <==> name in files
    ensures name !in r.1
    ensures r.1 == files - {name}
  {
    if name in files then (true, files - {name}) else (false, files)
  }

  /** A consumed command is seen once: asking again answers false. */
  lemma ConsumeOnce(files: Files, name: seq<char>)
    ensures !Consume(Consume(files, name).1, name).0
  {
  }
}

=== FILE: heartbeat.dfy ===
/** heartbeat.c: the deadline an application must meet with its next
    heartbeat. The clock reading is a parameter: heartbeat.c reads the
    monotonic clock, and is_timeup in apps.c makes the same decision on the
    wall clock. */
module Heartbeat {
  import opened Limits
  import opened Apps

  /** Seconds allowed since the last heartbeat: heartbeat_interval once the
      first heartbeat has arrived, the larger of interval and delay before. */
  function Threshold(a: App): (t: int)
    ensures t >= a.heartbeatInterval
    ensures !a.firstHeartbeat ==> t >= a.heartbeatDelay
    ensures a.firstHeartbeat ==> t == a.heartbeatInterval
    ensures t == a.heartbeatInterval || t == a.heartbeatDelay
  {
    if a.firstHeartbeat then a.heartbeatInterval else Max(a.heartbeatInterval, a.heartbeatDelay)
  }

  /** heartbeat_get_elapsed_time. */
  function ElapsedTime(a: App, now: int): (t: int)
    ensures a.lastHeartbeat + t == now
  {
    now - a.lastHeartbeat
  }

  /** heartbeat_set_first_received. */
  function SetFirstReceived(a: App): (r: App)
    ensures GetFirstReceived(r)
    ensures SameConfig(r, a) && r.started == a.started && r.pid == a.pid
    ensures r.lastHeartbeat == a.lastHeartbeat
    ensures a.started ==> (Consistent(a) ==> Consistent(r))
  {
    a.(firstHeartbeat := true)
  }

  /** heartbeat_get_first_received. */
  predicate GetFirstReceived(a: App) { a.firstHeartbeat }

  /** The answer of a timeout check and the record it leaves behind (the
      check refreshes the heartbeat time when the clock reads earlier than
      the last heartbeat). */
  datatype Check = Check(timedOut: bool, app: App)

  /** Whether a started application expecting heartbeats has overrun its
      deadline at the clock reading `now`. */
  predicate Overdue(a: App, now: int)
  {
    a.started && a.heartbeatInterval > 0 && now >= a.lastHeartbeat + Threshold(a)
  }

  /** heartbeat_is_timeout (and is_timeup). */
  function IsTimeout(a: App, now: int): (r: Check)
    ensures r.timedOut <==> Overdue(a, now)
    ensures !a.started || a.heartbeatInterval <= 0 ==> r == Check(false, a)
    ensures a.started && a.heartbeatInterval > 0 && now < a.lastHeartbeat ==> r.app == UpdateTime(a, now)
    ensures r.app == a || r.app == UpdateTime(a, now)
    ensures r.timedOut ==> r.app == a
  {
    if !a.started then Check(false, a)
    else if a.heartbeatInterval <= 0 then Check(false, a)
    else
      var elapsed := now - a.lastHeartbeat;
      if elapsed < 0 then Check(false, UpdateTime(a, now))
      else Check(elapsed >= Threshold(a), a)
  }

  /** An unchanged application that has timed out stays timed out as the
      clock advances. */
  lemma TimeoutMonotone(a: App, now: int, later: int)
    requires now <= later
    requires IsTimeout(a, now).timedOut
    ensures IsTimeout(a, later).timedOut
  {
  }

  /** Right after a heartbeat, and for the whole threshold after it, the
      application does not time out. */
  lemma NoTimeoutAfterUpdate(a: App, now: int, later: int)
    requires now <= later < now + Threshold(a)
    ensures !IsTimeout(UpdateTime(a, now), later).timedOut
  {
  }

  /** The check after a heartbeat at `now` fires exactly from the
      threshold on. */
  lemma TimeoutAtThreshold(a: App, now: int)
    requires a.started && a.heartbeatInterval > 0
    ensures IsTimeout(UpdateTime(a, now), now + Threshold(a)).timedOut
  {
  }

  /** The first heartbeat is given at least as long as the later ones. */
  lemma FirstThresholdLonger(a: App)
    ensures Threshold(a.(firstHeartbeat := false)) >= Threshold(a.(firstHeartbeat := true))
  {
  }

  /** A clock that reads earlier than the last heartbeat never times the
      application out; the check resets the deadline to start from now. */
  lemma ClockAnomalyResets(a: App, now: int)
    requires a.started && a.heartbeatInterval > 0 && now < a.lastHeartbeat
    ensures IsTimeout(a, now) == Check(false, a.(lastHeartbeat := now))
    ensures ElapsedTime(IsTimeout(a, now).app, now) == 0
  {
  }
}

=== FILE: limits.dfy ===
/** Constants shared by the watchdog's modules (apps.h, cmd.h, utils.h,
    filecmd.h), the Option wrapper, and the two pieces of C integer
    arithmetic the model needs written out: 32-bit two's-complement
    wrap-around and division that truncates toward zero. */
module Limits {

  /** Size of the application table. */
  const MaxApps: nat := 6
  /** Size of an application's name buffer, terminator included. */
  const MaxAppNameLength: nat := 32
  /** Size of an application's command buffer, terminator included. */
  const MaxAppCmdLength: nat := 256
  /** UDP port used when the ini file does not name one. */
  const DefaultUdpPort: int := 12345

  const IntMax: int := 0x7FFF_FFFF
  const IntMin: int := -0x8000_0000
  const LongMax: int := 0x7FFF_FFFF_FFFF_FFFF
  const LongMin: int := -0x8000_0000_0000_0000
  const TwoTo32: int := 0x1_0000_0000

  /** Process exit codes. */
  const ExitNormally: int := 0
  const ExitCrashed: int := 1
  const ExitRestart: int := 2
  const ExitReboot: int := 3

  datatype Option<+T> = None | Some(value: T)

  function Max(a: int, b: int): int { if a >= b then a else b }
  function Min(a: int, b: int): int { if a <= b then a else b }
  function Abs(a: int): nat { if a >= 0 then a else -a }

  /** The value a 32-bit signed int holds after an assignment of `x`
      on a two's-complement machine. */
  function Wrap32(x: int): (r: int)
    ensures IntMin <= r <= IntMax
    ensures IntMin <= x <= IntMax ==> r == x
    ensures (x - r) % TwoTo32 == 0
  {
    var q := (x - IntMin) / TwoTo32;
    x - q * TwoTo32
  }

  /** Wrapping does not depend on multiples of 2^32 added to the input. */
  lemma Wrap32Shift(x: int, k: int)
    ensures Wrap32(x + k * TwoTo32) == Wrap32(x)
  {
    var q := (x - IntMin) / TwoTo32;
    var r := (x - IntMin) % TwoTo32;
    assert x - IntMin == q * TwoTo32 + r;
    assert x + k * TwoTo32 - IntMin == (q + k) * TwoTo32 + r;
    DivUnique(x + k * TwoTo32 - IntMin, TwoTo32, q + k, r);
  }

  /** Euclidean division is determined by quotient and remainder. */
  lemma DivUnique(a: int, d: int, q: int, r: int)
    requires d > 0
    requires 0 <= r < d
    requires a == q * d + r
    ensures a / d == q
  {
    var q0 := a / d;
    var r0 := a % d;
    assert (q - q0) * d == q * d - q0 * d;
    MultipleBelowDivisor(q - q0, d, r0 - r);
  }

  /** The only multiple of `d` strictly between `-d` and `d` is zero. */
  lemma MultipleBelowDivisor(k: int, d: int, m: int)
    requires d > 0
    requires m == k * d
    requires -d < m < d
    ensures k == 0
  {
  }

  /** Congruent inputs wrap to the same 32-bit value. */
  lemma Wrap32Congruent(x: int, y: int)
    requires (x - y) % TwoTo32 == 0
    ensures Wrap32(x) == Wrap32(y)
  {
    var k := (x - y) / TwoTo32;
    assert x == y + k * TwoTo32;
    Wrap32Shift(y, k);
  }

  /** Integer division as C (and Python's int() of a true quotient)
      performs it: the quotient is truncated toward zero. */
  function CDiv(a: int, b: int): (q: int)
    requires b != 0
    ensures a >= 0 && b > 0 ==> q == a / b
    ensures Abs(q) == Abs(a) / Abs(b)
  {
    if (a >= 0) == (b > 0) then Abs(a) / Abs(b) else -(Abs(a) / Abs(b))
  }
}

=== FILE: stats.dfy ===
/** stats.c: the per-application statistics record, its event counters
    and the running average, maximum and minimum of the heartbeat times. */
module Stats {
  import opened Limits

  /** STATS_MAGIC: marks a record as initialised. */
  const StatsMagic: int := 0xA50F_AA55
  const TwoTo64: int := 0x1_0000_0000_0000_0000

  /** Statistic_t. Counters are size_t and times are time_t; both are
      taken unbounded here (see README). */
  datatype Statistic = Statistic(
    startedAt: int,
    crashedAt: int,
    heartbeatResetAt: int,
    avgFirstHeartbeat: int,
    maxFirstHeartbeat: int,
    minFirstHeartbeat: int,
    avgHeartbeat: int,
    maxHeartbeat: int,
    minHeartbeat: int,
    startCount: nat,
    crashCount: nat,
    heartbeatCount: nat,
    heartbeatCountOld: nat,
    heartbeatResetCount: nat,
    magic: int)

  /** A record as memset(0) leaves it. */
  const ZeroStatistic := Statistic(0, 0, 0, 0, 0, 0, 0, 0, 0, 0, 0, 0, 0, 0, 0)

  // ---------------------------------------------------------------------
  // Events

  /** The three events that start a new run of the application. */
  datatype Event = Started | Crashed | HeartbeatReset

  /** How many runs the record has seen: the divisor of the first-heartbeat
      average. */
  function Runs(s: Statistic): nat
  {
    s.startCount + s.crashCount + s.heartbeatResetCount
  }

  /** The two records agree on everything but the event fields. */
  predicate SameSamples(a: Statistic, b: Statistic)
  {
    a.avgFirstHeartbeat == b.avgFirstHeartbeat && a.maxFirstHeartbeat == b.maxFirstHeartbeat
    && a.minFirstHeartbeat == b.minFirstHeartbeat && a.avgHeartbeat == b.avgHeartbeat
    && a.maxHeartbeat == b.maxHeartbeat && a.minHeartbeat == b.minHeartbeat && a.magic == b.magic
  }

  /** The counter an event raises. */
  function Count(s: Statistic, e: Event): nat
  {
    match e
    case Started => s.startCount
    case Crashed => s.crashCount
    case HeartbeatReset => s.heartbeatResetCount
  }

  /** The time stamp an event sets. */
  function Stamp(s: Statistic, e: Event): int
  {
    match e
    case Started => s.startedAt
    case Crashed => s.crashedAt
    case HeartbeatReset => s.heartbeatResetAt
  }

  /** stats_started_at, stats_crashed_at and stats_heartbeat_reset_at:
      stamp the event, count it, and start a new heartbeat count
      (clearHeartbeatCount). */
  function Record(s: Statistic, e: Event, now: int): (r: Statistic)
    ensures Count(r, e) == Count(s, e) + 1 && Stamp(r, e) == now
    ensures forall f :: f != e ==> Count(r, f) == Count(s, f) && Stamp(r, f) == Stamp(s, f)
    ensures r.heartbeatCountOld == s.heartbeatCount && r.heartbeatCount == 0
    ensures SameSamples(r, s)
  {
    var c := s.(heartbeatCountOld := s.heartbeatCount, heartbeatCount := 0);
    match e
    case Started => c.(startedAt := now, startCount := s.startCount + 1)
    case Crashed => c.(crashedAt := now, crashCount := s.crashCount + 1)
    case HeartbeatReset => c.(heartbeatResetAt := now, heartbeatResetCount := s.heartbeatResetCount + 1)
  }

  /** Every event adds one run. */
  lemma RecordAddsRun(s: Statistic, e: Event, now: int)
    ensures Runs(Record(s, e, now)) == Runs(s) + 1
  {
  }

  // ---------------------------------------------------------------------
  // Regular heartbeats

  /** time_t holding an unsigned long value (two's complement). */
  function ToTimeT(u: int): (r: int)
    requires 0 <= u < TwoTo64
    ensures LongMin <= r <= LongMax
    ensures u <= LongMax ==> r == u
  {
    if u <= LongMax then u else u - TwoTo64
  }

  /** The running average of stats_update_heartbeat_time. The operands are
      time_t and size_t, so the source computes in unsigned long: every
      step is the exact value reduced modulo 2^64, and so is the whole. */
  function HeartbeatAverage(avg: int, n: nat, t: int): int
    requires n >= 1
  {
    ToTimeT(((avg * (n - 1) + t) % TwoTo64) / n)
  }

  /** When nothing overflows and no sample is negative, the running
      average is the plain integer average. */
  lemma HeartbeatAverageExact(avg: int, n: nat, t: int)
    requires n >= 1 && avg >= 0 && t >= 0
    requires avg * (n - 1) + t <= LongMax
    ensures HeartbeatAverage(avg, n, t) == (avg * (n - 1) + t) / n
  {
    var x := avg * (n - 1) + t;
    assert 0 <= x < TwoTo64;
    assert x % TwoTo64 == x;
    DivBelow(x, n);
  }

  /** A non-negative quotient by a positive divisor is no larger than the
      dividend. */
  lemma DivBelow(x: int, n: int)
    requires x >= 0 && n >= 1
    ensures 0 <= x / n <= x
  {
    DivBetween(x, n, 0, x);
  }

  /** stats_update_heartbeat_time: count the sample and fold it into the
      average, the maximum and the minimum (the minimum restarts with the
      first sample after the count was cleared). */
  function UpdateHeartbeat(s: Statistic, t: int): (r: Statistic)
    ensures r.heartbeatCount == s.heartbeatCount + 1
    ensures r.maxHeartbeat == Max(s.maxHeartbeat, t)
    ensures r.minHeartbeat == (if s.heartbeatCount == 0 then t else Min(s.minHeartbeat, t))
    ensures r.avgHeartbeat == HeartbeatAverage(s.avgHeartbeat, s.heartbeatCount + 1, t)
    ensures r == s.(heartbeatCount := r.heartbeatCount, avgHeartbeat := r.avgHeartbeat,
                    maxHeartbeat := r.maxHeartbeat, minHeartbeat := r.minHeartbeat)
  {
    var n := s.heartbeatCount + 1;
    var avg := HeartbeatAverage(s.avgHeartbeat, n, t);
    var mx := if t > s.maxHeartbeat then t else s.maxHeartbeat;
    var mn := if t < s.minHeartbeat || n == 1 then t else s.minHeartbeat;
    s.(heartbeatCount := n, avgHeartbeat := avg, maxHeartbeat := mx, minHeartbeat := mn)
  }

  /** Average, minimum and maximum of the regular heartbeat times are
      ordered and non-negative. */
  predicate HeartbeatOrdered(s: Statistic)
  {
    0 <= s.minHeartbeat <= s.avgHeartbeat <= s.maxHeartbeat
  }

  /** For non-negative samples (the only ones main.c passes) and no
      overflow, every update keeps min <= avg <= max. */
  lemma UpdateHeartbeatOrdered(s: Statistic, t: int)
    requires HeartbeatOrdered(s) && t >= 0
    requires Max(s.maxHeartbeat, t) * (s.heartbeatCount + 1) <= LongMax
    ensures HeartbeatOrdered(UpdateHeartbeat(s, t))
  {
    var n := s.heartbeatCount + 1;
    var hi := Max(s.maxHeartbeat, t);
    var x := s.avgHeartbeat * (n - 1) + t;
    if n == 1 {
      assert x == t;
      HeartbeatAverageExact(s.avgHeartbeat, n, t);
    } else {
      var lo := Min(s.minHeartbeat, t);
      WeightedBetween(s.avgHeartbeat, n - 1, t, lo, hi);
      HeartbeatAverageExact(s.avgHeartbeat, n, t);
      DivBetween(x, n, lo, hi);
    }
  }

  /** Folding a sample into `k` copies of a value between lo and hi stays
      between lo and hi times k + 1. */
  lemma WeightedBetween(v: int, k: nat, t: int, lo: int, hi: int)
    requires lo <= v <= hi && lo <= t <= hi
    ensures lo * (k + 1) <= v * k + t <= hi * (k + 1)
  {
    MulLe(lo, k, v);
    MulLe(v, k, hi);
    assert lo * (k + 1) == lo * k + lo;
    assert hi * (k + 1) == hi * k + hi;
  }

  /** Multiplying by a natural number keeps the order. */
  lemma MulLe(a: int, k: nat, b: int)
    requires a <= b
    ensures a * k <= b * k
  {
    var d := b - a;
    assert b * k == a * k + d * k;
    assert d * k >= 0;
  }

  /** A dividend between lo * n and hi * n has its quotient between lo
      and hi. */
  lemma DivBetween(x: int, n: int, lo: int, hi: int)
    requires n >= 1 && lo * n <= x <= hi * n
    ensures lo <= x / n <= hi
  {
    var q := x / n;
    var r := x % n;
    assert x == q * n + r && 0 <= r < n;
    if q < lo {
      MulLe(q + 1, n, lo);
    }
    if q > hi {
      MulLe(hi + 1, n, q);
    }
  }

  // ---------------------------------------------------------------------
  // First heartbeats

  /** stats_update_first_heartbeat_time, parameterised by the test that
      restarts the minimum: `asWritten` uses the start_count field of the
      record, as the source does; otherwise the number of runs, which the
      source holds in a local variable of the same name. The average is
      signed long arithmetic, so the division truncates toward zero. */
  function UpdateFirstHeartbeatWith(s: Statistic, t: int, asWritten: bool): (r: Statistic)
    requires Runs(s) >= 1
  {
    var k := Runs(s);
    var avg := CDiv(s.avgFirstHeartbeat * (k - 1) + t, k);
    var mx := if t > s.maxFirstHeartbeat then t else s.maxFirstHeartbeat;
    var first := if asWritten then s.startCount == 1 else k == 1;
    var mn := if t < s.minFirstHeartbeat || first then t else s.minFirstHeartbeat;
    s.(avgFirstHeartbeat := avg, maxFirstHeartbeat := mx, minFirstHeartbeat := mn)
  }

  /** The source's first-heartbeat update: the corrected update except for
      the minimum, which restarts at `t` whenever the start counter is 1. */
  function UpdateFirstHeartbeatAsWritten(s: Statistic, t: int): (r: Statistic)
    requires Runs(s) >= 1
    ensures r.maxFirstHeartbeat == Max(s.maxFirstHeartbeat, t)
    ensures r.minFirstHeartbeat == (if s.startCount == 1 then t else Min(s.minFirstHeartbeat, t))
    ensures r == UpdateFirstHeartbeat(s, t).(minFirstHeartbeat := r.minFirstHeartbeat)
  {
    UpdateFirstHeartbeatWith(s, t, true)
  }

  /** The first-heartbeat update with the minimum restarted only on the
      first run. */
  function UpdateFirstHeartbeat(s: Statistic, t: int): (r: Statistic)
    requires Runs(s) >= 1
    ensures r.maxFirstHeartbeat == Max(s.maxFirstHeartbeat, t)
    ensures r.minFirstHeartbeat == (if Runs(s) == 1 then t else Min(s.minFirstHeartbeat, t))
    ensures t >= 0 && s.avgFirstHeartbeat >= 0 ==>
      r.avgFirstHeartbeat == (s.avgFirstHeartbeat * (Runs(s) - 1) + t) / Runs(s)
    ensures r == s.(avgFirstHeartbeat := r.avgFirstHeartbeat, maxFirstHeartbeat := r.maxFirstHeartbeat,
                    minFirstHeartbeat := r.minFirstHeartbeat)
  {
    UpdateFirstHeartbeatWith(s, t, false)
  }

  /** Average, minimum and maximum of the first-heartbeat times are
      ordered and non-negative. */
  predicate FirstOrdered(s: Statistic)
  {
    0 <= s.minFirstHeartbeat <= s.avgFirstHeartbeat <= s.maxFirstHeartbeat
  }

  /** With the minimum restarted only on the first run, non-negative first
      heartbeat times keep min <= avg <= max. */
  lemma UpdateFirstHeartbeatOrdered(s: Statistic, t: int)
    requires Runs(s) >= 1 && FirstOrdered(s) && t >= 0
    ensures FirstOrdered(UpdateFirstHeartbeat(s, t))
  {
    var k := Runs(s);
    if k > 1 {
      var lo := Min(s.minFirstHeartbeat, t);
      var hi := Max(s.maxFirstHeartbeat, t);
      WeightedBetween(s.avgFirstHeartbeat, k - 1, t, lo, hi);
      DivBetween(s.avgFirstHeartbeat * (k - 1) + t, k, lo, hi);
    }
  }

  /** The source restarts the minimum whenever the start counter is 1,
      also on the runs that follow a crash: after one start and one crash,
      a first heartbeat of 50 s over a history of 5 s makes the minimum 50
      while the average is 27. */
  lemma FirstMinimumAsWrittenExceedsAverage()
    ensures var s := ZeroStatistic.(startCount := 1, crashCount := 1,
                                    avgFirstHeartbeat := 5, maxFirstHeartbeat := 5, minFirstHeartbeat := 5);
      && FirstOrdered(s)
      && UpdateFirstHeartbeatAsWritten(s, 50).minFirstHeartbeat == 50
      && UpdateFirstHeartbeatAsWritten(s, 50).avgFirstHeartbeat == 27
      && !FirstOrdered(UpdateFirstHeartbeatAsWritten(s, 50))
      && UpdateFirstHeartbeat(s, 50).minFirstHeartbeat == 5
  {
  }

  /** The two versions agree whenever the start counter is 1 exactly on
      the first run. */
  lemma FirstHeartbeatVersionsAgree(s: Statistic, t: int)
    requires Runs(s) >= 1
    requires s.startCount == 1 <==> Runs(s) == 1
    ensures UpdateFirstHeartbeatAsWritten(s, t) == UpdateFirstHeartbeat(s, t)
  {
  }

  // ---------------------------------------------------------------------
  // Initialisation

  /** resetStatisticsFile: a record without the magic value is replaced by
      a zero record carrying it. */
  function ResetStatistics(s: Statistic): (r: Statistic)
    ensures r.magic == StatsMagic
    ensures s.magic == StatsMagic ==> r == s
    ensures s.magic != StatsMagic ==> r == ZeroStatistic.(magic := StatsMagic)
  {
    if s.magic != StatsMagic then ZeroStatistic.(magic := StatsMagic) else s
  }

  /** Resetting twice is resetting once. */
  lemma ResetIdempotent(s: Statistic)
    ensures ResetStatistics(ResetStatistics(s)) == ResetStatistics(s)
  {
  }

  /** A freshly reset record satisfies both ordering invariants. */
  lemma ResetOrdered(s: Statistic)
    requires s.magic != StatsMagic
    ensures HeartbeatOrdered(ResetStatistics(s)) && FirstOrdered(ResetStatistics(s))
  {
  }
}

=== FILE: supervisor.dfy ===
/** main.c: the watchdog's main loop. One pass polls for a datagram,
    handles a heartbeat, decides one action per application, then looks at
    the global command files and the periodic reboot. Signals change the
    loop's control state. The clocks, the file set and the operating
    system's answers are parameters. */
module Supervisor {
  import opened Limits
  import opened Apps
  import opened Heartbeat
  import opened Stats
  import Command
  import opened FileCmd
  import opened Config

  // ---------------------------------------------------------------------
  // Signals

  /** The loop flag, the exit code, the SIGUSR1 allowance and whether a
      handler has already ended the process with exit(). */
  datatype Control = Control(alive: bool, returnCode: int, killError: int, exited: bool)

  /** The SIGUSR1 signals tolerated before the process exits at once. */
  const KillErrorAllowance := 10

  const InitialControl := Control(true, ExitNormally, KillErrorAllowance, false)

  datatype Signal = SigInt | SigTerm | SigQuit | SigUsr1 | SigUsr2

  /** The handlers: INT and TERM ask for a restart, QUIT for a reboot, USR1
      for a normal stop (and exits at once once the allowance is spent);
      USR2 does nothing. */
  function OnSignal(c: Control, s: Signal): (r: Control)
    ensures c.exited || s == SigUsr2 ==> r == c
    ensures !c.exited && s != SigUsr2 ==> !r.alive
    ensures !c.exited && (s == SigInt || s == SigTerm) ==> r.returnCode == ExitRestart
    ensures !c.exited && s == SigQuit ==> r.returnCode == ExitReboot
    ensures !c.exited && s == SigUsr1 ==> r.returnCode == ExitNormally
    ensures !c.exited && s == SigUsr1 ==> (r.exited <==> c.killError <= 0)
    ensures !c.exited && s == SigUsr1 && c.killError > 0 ==> r.killError == c.killError - 1
    ensures s != SigUsr1 ==> r.killError == c.killError && r.exited == c.exited
  {
    if c.exited then c
    else
      match s
      case SigInt => c.(alive := false, returnCode := ExitRestart)
      case SigTerm => c.(alive := false, returnCode := ExitRestart)
      case SigQuit => c.(alive := false, returnCode := ExitReboot)
      case SigUsr1 =>
        if c.killError > 0 then c.(alive := false, returnCode := ExitNormally, killError := c.killError - 1)
        else c.(alive := false, returnCode := ExitNormally, exited := true)
      case SigUsr2 => c
  }

  function OnSignals(c: Control, sigs: seq<Signal>): Control
    decreases |sigs|
  {
    if sigs == [] then c else OnSignals(OnSignal(c, sigs[0]), sigs[1..])
  }

  /** The status the process ends with: exit(0) from the handler, or the
      return code once the loop stops. */
  function ExitStatus(c: Control): (code: int)
    ensures c.exited ==> code == ExitNormally
  {
    if c.exited then ExitNormally else c.returnCode
  }

  function Repeat(s: Signal, n: nat): (r: seq<Signal>)
    ensures |r| == n && forall i :: 0 <= i < n ==> r[i] == s
  {
    if n == 0 then [] else [s] + Repeat(s, n - 1)
  }

  /** n SIGUSR1 signals: each stops the loop with code 0 and uses up one of
      the allowance; the process exits at once exactly when n exceeds it. */
  lemma {:induction false} Usr1Countdown(c: Control, n: nat)
    requires !c.exited && c.killError >= 0
    ensures OnSignals(c, Repeat(SigUsr1, n)).exited <==> n > c.killError
    ensures n <= c.killError ==> OnSignals(c, Repeat(SigUsr1, n)).killError == c.killError - n
    ensures n > 0 ==> !OnSignals(c, Repeat(SigUsr1, n)).alive
    ensures n > 0 ==> ExitStatus(OnSignals(c, Repeat(SigUsr1, n))) == ExitNormally
    decreases n
  {
    if n > 0 {
      var sigs := Repeat(SigUsr1, n);
      var c1 := OnSignal(c, SigUsr1);
      assert sigs[1..] == Repeat(SigUsr1, n - 1);
      if c1.exited {
        ExitedStays(c1, sigs[1..]);
      } else {
        Usr1Countdown(c1, n - 1);
      }
    }
  }

  /** Once a handler has exited, nothing changes any more. */
  lemma {:induction false} ExitedStays(c: Control, sigs: seq<Signal>)
    requires c.exited
    ensures OnSignals(c, sigs) == c
    decreases |sigs|
  {
    if sigs != [] {
      ExitedStays(OnSignal(c, sigs[0]), sigs[1..]);
    }
  }

  /** Ten SIGUSR1 are tolerated; the eleventh ends the process. */
  lemma TenthAndEleventhUsr1()
    ensures !OnSignals(InitialControl, Repeat(SigUsr1, 10)).exited
    ensures OnSignals(InitialControl, Repeat(SigUsr1, 10)).killError == 0
    ensures OnSignals(InitialControl, Repeat(SigUsr1, 11)).exited
  {
    Usr1Countdown(InitialControl, 10);
    Usr1Countdown(InitialControl, 11);
  }

  // ---------------------------------------------------------------------
  // Heartbeats

  /** The application table and the statistics record of each application. */
  datatype Table = Table(apps: seq<App>, count: nat, stats: seq<Statistic>)

  /** What the loop keeps about the table: MAX_APPS slots, consistent run
      state, and a started application has been counted as run at least
      once (the first-heartbeat average divides by that number). */
  predicate TableValid(t: Table)
  {
    |t.apps| == MaxApps && |t.stats| == MaxApps && t.count <= MaxApps
    && forall i :: 0 <= i < MaxApps ==> Consistent(t.apps[i]) && (t.apps[i].started ==> Runs(t.stats[i]) >= 1)
  }

  /** Nothing but the run state and the heartbeat time of the applications
      and the statistics differ. */
  predicate SameTableConfig(t: Table, u: Table)
    requires |t.apps| == MaxApps && |u.apps| == MaxApps
  {
    t.count == u.count && forall i :: 0 <= i < MaxApps ==> SameConfig(t.apps[i], u.apps[i])
  }

  /** The heartbeat branch of parse_commands: a heartbeat of an unknown pid
      changes nothing; otherwise the first heartbeat of a run updates the
      first-heartbeat statistics and sets the flag, a later one updates the
      regular statistics when the elapsed time is not negative, and every
      heartbeat restarts the deadline at `mono` (the monotonic clock). */
  function OnHeartbeat(t: Table, pid: int, mono: int): (r: Table)
    requires TableValid(t)
    ensures TableValid(r) && SameTableConfig(t, r)
    ensures FindPid(t.apps, t.count, pid) == -1 ==> r == t
    ensures var i := FindPid(t.apps, t.count, pid);
      i >= 0 ==>
        r.apps[i].lastHeartbeat == mono && r.apps[i].firstHeartbeat
        && r.apps[i].pid == t.apps[i].pid && r.apps[i].started
        && (forall j :: 0 <= j < MaxApps && j != i ==> r.apps[j] == t.apps[j] && r.stats[j] == t.stats[j])
        && (t.apps[i].firstHeartbeat && mono >= t.apps[i].lastHeartbeat ==>
              r.stats[i] == UpdateHeartbeat(t.stats[i], mono - t.apps[i].lastHeartbeat))
        && (t.apps[i].firstHeartbeat && mono < t.apps[i].lastHeartbeat ==> r.stats[i] == t.stats[i])
        && (!t.apps[i].firstHeartbeat ==>
              r.stats[i] == UpdateFirstHeartbeatAsWritten(t.stats[i], mono - t.apps[i].lastHeartbeat))
  {
    var i := FindPid(t.apps, t.count, pid);
    if i < 0 then t
    else
      var a := t.apps[i];
      var elapsed := ElapsedTime(a, mono);
      var s := t.stats[i];
      if GetFirstReceived(a) then
        var s1 := if elapsed >= 0 then UpdateHeartbeat(s, elapsed) else s;
        Table(t.apps[i := UpdateTime(a, mono)], t.count, t.stats[i := s1])
      else
        var s1 := UpdateFirstHeartbeatAsWritten(s, elapsed);
        Table(t.apps[i := UpdateTime(SetFirstReceived(a), mono)], t.count, t.stats[i := s1])
  }

  /** After a heartbeat the application does not time out for the whole
      threshold that follows. */
  lemma HeartbeatDefersTimeout(t: Table, pid: int, mono: int, later: int)
    requires TableValid(t)
    requires FindPid(t.apps, t.count, pid) >= 0
    requires var i := FindPid(t.apps, t.count, pid);
      mono <= later < mono + Threshold(OnHeartbeat(t, pid, mono).apps[i])
    ensures !IsTimeout(OnHeartbeat(t, pid, mono).apps[FindPid(t.apps, t.count, pid)], later).timedOut
  {
    var i := FindPid(t.apps, t.count, pid);
    var a := OnHeartbeat(t, pid, mono).apps[i];
    assert a == UpdateTime(a, mono);
    NoTimeoutAfterUpdate(a, mono, later);
  }

  /** Only the first heartbeat of a run counts as the first: the next one
      goes to the regular statistics. */
  lemma SecondHeartbeatIsRegular(t: Table, pid: int, mono: int, later: int)
    requires TableValid(t) && FindPid(t.apps, t.count, pid) >= 0 && mono <= later
    ensures var u := OnHeartbeat(t, pid, mono);
      var i := FindPid(t.apps, t.count, pid);
      FindPid(u.apps, u.count, pid) == i
      && OnHeartbeat(u, pid, later).stats[i] == UpdateHeartbeat(u.stats[i], later - mono)
  {
    var u := OnHeartbeat(t, pid, mono);
    var i := FindPid(t.apps, t.count, pid);
    assert forall j :: 0 <= j < i ==> u.apps[j] == t.apps[j];
    assert FindPid(u.apps, u.count, pid) == i;
  }

  /** A received datagram, classified by cmd_parse_network as written:
      only a heartbeat acts (the other commands are disabled in the
      source). */
  function OnDatagram(t: Table, bytes: seq<char>, mono: int): (r: Table)
    requires TableValid(t)
    ensures TableValid(r) && SameTableConfig(t, r)
    ensures !Command.ParseDatagramAsWritten(bytes).kind.Heartbeat? ==> r == t
  {
    var cmd := Command.ParseDatagramAsWritten(bytes);
    if cmd.kind.Heartbeat? then OnHeartbeat(t, cmd.pid, mono) else t
  }

  /** The datagram "p4294967297" acts as a heartbeat of the application
      whose pid is 1, although its number is no pid. */
  lemma WrappedHeartbeatReachesPidOne(t: Table, mono: int)
    requires TableValid(t)
    ensures OnDatagram(t, Command.HeartbeatPayload(TwoTo32 + 1), mono) == OnHeartbeat(t, 1, mono)
  {
    Command.WrappedPidAccepted();
  }

  /** The test child's heartbeat reaches the application that owns its pid. */
  lemma ChildHeartbeatArrives(t: Table, pid: int, mono: int)
    requires TableValid(t) && 0 < pid < IntMax
    ensures OnDatagram(t, Command.HeartbeatPayload(pid), mono) == OnHeartbeat(t, pid, mono)
  {
    Command.HeartbeatRoundTrip(pid);
  }

  // ---------------------------------------------------------------------
  // One application per pass

  /** The branch the loop takes for one application. */
  datatype Decision = OnCrash | OnTimeout | OnStopFile | OnRestartFile | Launch | Keep

  /** The priority of the checks: a started application that is not
      running is restarted as crashed; else one that missed its heartbeat
      is restarted; else a stop file kills it; else a restart file restarts
      it. An application that is not started is started when there is no
      stop file and either a start file or its start time. */
  function Decide(started: bool, running: bool, timedOut: bool, stopFile: bool, restartFile: bool,
                  startFile: bool, startTime: bool): (d: Decision)
    ensures d == OnCrash <==> started && !running
    ensures d == OnTimeout <==> started && running && timedOut
    ensures d == OnStopFile <==> started && running && !timedOut && stopFile
    ensures d == OnRestartFile <==> started && running && !timedOut && !stopFile && restartFile
    ensures d == Launch <==> !started && !stopFile && (startFile || startTime)
  {
    if started then
      if !running then OnCrash
      else if timedOut then OnTimeout
      else if stopFile then OnStopFile
      else if restartFile then OnRestartFile
      else Keep
    else if !stopFile && (startFile || startTime) then Launch
    else Keep
  }

  /** The operating system's answers for one application in one pass:
      whether its process is alive, whether a kill succeeds, what a restart
      meets, and fork's result for a start (never 0 in the parent). */
  datatype Outcome = Outcome(alive: bool, terminated: bool, restart: RestartOutcome, forkPid: int)

  predicate OutcomeValid(o: Outcome) { o.forkPid != 0 && o.restart.forkPid != 0 }

  /** The clocks one application's turn reads: the monotonic clock of the
      heartbeat module, the wall clock, and the system uptime with its
      value when the ini file was read. Each turn reads them afresh, after
      the sleeps of the restarts and kills of the slots before it. */
  datatype Clocks = Clocks(mono: int, wall: int, sysUptime: int, uptimeAtLoad: int)

  /** The decision for one application at the start of its turn. */
  function DecisionFor(a: App, files: Files, c: Clocks, o: Outcome): Decision
    requires |a.name| < MaxAppNameLength
  {
    Decide(a.started, IsRunning(a, o.alive), IsTimeout(a, c.mono).timedOut,
           Query(files, StopApp, a.name), Query(files, RestartApp, a.name),
           Query(files, StartApp, a.name), IsStartTime(a, c.sysUptime, c.uptimeAtLoad))
  }

  /** What one application's turn leaves behind. */
  datatype Turn = Turn(app: App, stat: Statistic, files: Files)

  /** The watchdog's own command files are present in both sets alike. */
  predicate KeepsGlobals(before: Files, after: Files)
  {
    (WdtStop in after <==> WdtStop in before) && (WdtRestart in after <==> WdtRestart in before)
    && (WdtReboot in after <==> WdtReboot in before)
  }

  /** One iteration of the application scan. */
  function AppTurn(a: App, s: Statistic, files: Files, c: Clocks, o: Outcome): (r: Turn)
    requires |a.name| < MaxAppNameLength && OutcomeValid(o)
    requires Consistent(a) && (a.started ==> Runs(s) >= 1)
    ensures SameConfig(r.app, a) && Consistent(r.app) && (r.app.started ==> Runs(r.stat) >= 1)
    ensures var d := DecisionFor(a, files, c, o);
      (d == OnCrash <==> r.stat == Record(s, Crashed, c.wall))
      && (d == OnTimeout <==> r.stat == Record(s, HeartbeatReset, c.wall))
      && (d == OnCrash || d == OnTimeout ==> r.app == Restart(a, o.restart))
      && (d == OnStopFile ==> r.app == Kill(IsTimeout(a, c.mono).app, o.terminated))
      && (d == OnRestartFile ==> r.app == Restart(IsTimeout(a, c.mono).app, o.restart)
                                 && r.files == Remove(files, RestartApp, a.name))
      && (d == Launch && o.forkPid > 0 ==>
            (r.app == Start(a, o.forkPid, c.wall) && r.stat == Record(s, Started, c.wall)
             && r.files == Remove(Remove(files, StartApp, a.name), RestartApp, a.name)))
      && (d == Launch && o.forkPid < 0 ==> r.app == a.(pid := 0) && r.stat == s && r.files == files)
      && (d == Keep ==> r.stat == s && r.files == files && r.app == IsTimeout(a, c.mono).app)
      && (d != OnRestartFile && d != Launch ==> r.files == files)
    ensures r.files <= files && KeepsGlobals(files, r.files)
  {
    FileNameNotGlobal(StartApp, a.name);
    FileNameNotGlobal(RestartApp, a.name);
    if a.started then
      if !IsRunning(a, o.alive) then
        Turn(Restart(a, o.restart), Record(s, Crashed, c.wall), files)
      else
        var check := IsTimeout(a, c.mono);
        var b := check.app;
        if check.timedOut then
          Turn(Restart(b, o.restart), Record(s, HeartbeatReset, c.wall), files)
        else if Query(files, StopApp, a.name) then
          Turn(Kill(b, o.terminated), s, files)
        else if Query(files, RestartApp, a.name) then
          Turn(Restart(b, o.restart), s, Remove(files, RestartApp, a.name))
        else
          Turn(b, s, files)
    else if !Query(files, StopApp, a.name) && (Query(files, StartApp, a.name) || IsStartTime(a, c.sysUptime, c.uptimeAtLoad)) then
      var b := Start(a, o.forkPid, c.wall);
      if b.started then
        Turn(b, Record(s, Started, c.wall), Remove(Remove(files, StartApp, a.name), RestartApp, a.name))
      else
        Turn(b, s, files)
    else
      Turn(a, s, files)
  }

  /** A started application sees exactly one of the crash, timeout, stop
      and restart actions, or none; a stopped one is at most started. */
  lemma OneActionPerTurn(a: App, files: Files, c: Clocks, o: Outcome)
    requires |a.name| < MaxAppNameLength
    ensures a.started ==> DecisionFor(a, files, c, o) != Launch
    ensures !a.started ==> DecisionFor(a, files, c, o) in {Launch, Keep}
  {
  }

  /** A stop file keeps a stopped application stopped, whatever else holds. */
  lemma StopFileBlocksStart(a: App, s: Statistic, files: Files, c: Clocks, o: Outcome)
    requires |a.name| < MaxAppNameLength && OutcomeValid(o)
    requires Consistent(a) && !a.started && Query(files, StopApp, a.name)
    ensures AppTurn(a, s, files, c, o) == Turn(a, s, files)
  {
  }

  /** The scan of applications `i` to `count - 1`, in order; `clocks` and
      `outcomes` hold the clock readings and the system's answers for every
      slot. */
  function ScanFrom(t: Table, files: Files, clocks: seq<Clocks>, outcomes: seq<Outcome>, i: nat): (r: (Table, Files))
    requires TableValid(t) && |clocks| == MaxApps && |outcomes| == MaxApps
    requires forall j :: 0 <= j < MaxApps ==> |t.apps[j].name| < MaxAppNameLength && OutcomeValid(outcomes[j])
    ensures TableValid(r.0) && SameTableConfig(t, r.0)
    ensures forall j :: 0 <= j < MaxApps && (j < i || j >= t.count) ==> r.0.apps[j] == t.apps[j] && r.0.stats[j] == t.stats[j]
    ensures r.1 <= files && KeepsGlobals(files, r.1)
    decreases MaxApps - i
  {
    if i >= t.count then (t, files)
    else
      var turn := AppTurn(t.apps[i], t.stats[i], files, clocks[i], outcomes[i]);
      var t1 := Table(t.apps[i := turn.app], t.count, t.stats[i := turn.stat]);
      ScanFrom(t1, turn.files, clocks, outcomes, i + 1)
  }

  /** The turn of slot `i` is taken with the clocks read at that turn, and
      the scan leaves slot `i` as that turn does. */
  lemma ScanSlotReadsItsClock(t: Table, files: Files, clocks: seq<Clocks>, outcomes: seq<Outcome>, i: nat)
    requires TableValid(t) && |clocks| == MaxApps && |outcomes| == MaxApps
    requires forall j :: 0 <= j < MaxApps ==> |t.apps[j].name| < MaxAppNameLength && OutcomeValid(outcomes[j])
    requires i < t.count
    ensures var turn := AppTurn(t.apps[i], t.stats[i], files, clocks[i], outcomes[i]);
      var r := ScanFrom(t, files, clocks, outcomes, i);
      r.0.apps[i] == turn.app && r.0.stats[i] == turn.stat
  {
    var turn := AppTurn(t.apps[i], t.stats[i], files, clocks[i], outcomes[i]);
    var t1 := Table(t.apps[i := turn.app], t.count, t.stats[i := turn.stat]);
    assert ScanFrom(t, files, clocks, outcomes, i) == ScanFrom(t1, turn.files, clocks, outcomes, i + 1);
  }

  /** The scan from slot `i` reaches slot `k` with slot `k` as it was. */
  lemma {:induction false} ScanReachesSlot(t: Table, files: Files, clocks: seq<Clocks>, outcomes: seq<Outcome>, i: nat, k: nat)
      returns (u: Table, f: Files)
    requires TableValid(t) && |clocks| == MaxApps && |outcomes| == MaxApps
    requires forall j :: 0 <= j < MaxApps ==> |t.apps[j].name| < MaxAppNameLength && OutcomeValid(outcomes[j])
    requires i <= k < t.count
    ensures TableValid(u) && SameTableConfig(t, u)
    ensures forall j :: 0 <= j < MaxApps ==> |u.apps[j].name| < MaxAppNameLength
    ensures u.apps[k] == t.apps[k] && u.stats[k] == t.stats[k]
    ensures ScanFrom(t, files, clocks, outcomes, i) == ScanFrom(u, f, clocks, outcomes, k)
    decreases k - i
  {
    if i == k {
      u, f := t, files;
    } else {
      var turn := AppTurn(t.apps[i], t.stats[i], files, clocks[i], outcomes[i]);
      var t1 := Table(t.apps[i := turn.app], t.count, t.stats[i := turn.stat]);
      assert SameTableConfig(t, t1);
      u, f := ScanReachesSlot(t1, turn.files, clocks, outcomes, i + 1, k);
    }
  }

  /** A started, running application whose deadline has passed by the
      clocks of its own turn is restarted for the timeout in this pass,
      even when it was still on time by the clocks of the first turn: the
      restarts and kills of the slots before it may have slept meanwhile. */
  lemma LateSlotTimesOutInSamePass(t: Table, files: Files, clocks: seq<Clocks>, outcomes: seq<Outcome>, k: nat)
    requires TableValid(t) && |clocks| == MaxApps && |outcomes| == MaxApps
    requires forall j :: 0 <= j < MaxApps ==> |t.apps[j].name| < MaxAppNameLength && OutcomeValid(outcomes[j])
    requires k < t.count
    requires t.apps[k].started && IsRunning(t.apps[k], outcomes[k].alive)
    requires !IsTimeout(t.apps[k], clocks[0].mono).timedOut && IsTimeout(t.apps[k], clocks[k].mono).timedOut
    ensures ScanFrom(t, files, clocks, outcomes, 0).0.stats[k] == Record(t.stats[k], HeartbeatReset, clocks[k].wall)
  {
    var u, f := ScanReachesSlot(t, files, clocks, outcomes, 0, k);
    ScanSlotReadsItsClock(u, f, clocks, outcomes, k);
  }

  // ---------------------------------------------------------------------
  // Global commands and the periodic reboot

  /** The global command files: wdtstop before wdtrestart before wdtreboot;
      only the first one present is consumed. */
  function GlobalCommands(c: Control, files: Files): (r: (Control, Files))
    ensures WdtStop in files ==> r == (c.(alive := false, returnCode := ExitNormally), files - {WdtStop})
    ensures WdtStop !in files && WdtRestart in files ==>
      r == (c.(alive := false, returnCode := ExitRestart), files - {WdtRestart})
    ensures WdtStop !in files && WdtRestart !in files && WdtReboot in files ==>
      r == (c.(alive := false, returnCode := ExitReboot), files - {WdtReboot})
    ensures WdtStop !in files && WdtRestart !in files && WdtReboot !in files ==> r == (c, files)
  {
    var stop := Consume(files, WdtStop);
    if stop.0 then (c.(alive := false, returnCode := ExitNormally), stop.1)
    else
      var restart := Consume(files, WdtRestart);
      if restart.0 then (c.(alive := false, returnCode := ExitRestart), restart.1)
      else
        var reboot := Consume(files, WdtReboot);
        if reboot.0 then (c.(alive := false, returnCode := ExitReboot), reboot.1)
        else (c, files)
  }

  /** Whether the periodic reboot fires at `uptime` seconds since the
      watchdog started, `hour`:`minute` being the local time. */
  function RebootDue(mode: RebootMode, uptime: int, hour: int, minute: int): (due: bool)
    requires mode.Interval? ==> mode.minutes > 0
    ensures due ==> uptime % 60 == 0 && mode != Disabled
    ensures mode.DailyTime? ==> (due <==> uptime % 60 == 0 && hour == mode.hour && minute == mode.minute)
  {
    if mode == Disabled || uptime % 60 != 0 then false
    else
      match mode
      case DailyTime(h, m) => hour == h && minute == m
      case Interval(n) =>
        var minutes := CDiv(uptime, 60);
        minutes > 0 && minutes % n == 0
  }

  lemma ExactDiv(a: int, d: int, q: int)
    requires d > 0 && a == q * d
    ensures a / d == q && a % d == 0
  {
    DivUnique(a, d, q, 0);
  }

  /** The interval reboot fires exactly at the positive multiples of the
      interval. */
  lemma IntervalRebootDue(n: int, uptime: int, hour: int, minute: int)
    requires n > 0
    ensures RebootDue(Interval(n), uptime, hour, minute) <==> uptime > 0 && uptime % (60 * n) == 0
  {
    if RebootDue(Interval(n), uptime, hour, minute) {
      var q := uptime / 60;
      assert uptime == q * 60;
      assert uptime >= 0;
      assert q > 0;
      var k := q / n;
      assert q == k * n;
      assert uptime == k * (60 * n);
      ExactDiv(uptime, 60 * n, k);
    }
    if uptime > 0 && uptime % (60 * n) == 0 {
      var j := uptime / (60 * n);
      assert uptime == (n * j) * 60;
      ExactDiv(uptime, 60, n * j);
      assert n * j > 0;
      ExactDiv(n * j, n, j);
    }
  }

  /** What ends the pass: the global commands, then the periodic reboot. */
  function EndOfPass(c: Control, files: Files, mode: RebootMode, uptime: int, hour: int, minute: int): (r: (Control, Files))
    requires mode.Interval? ==> mode.minutes > 0
  {
    var g := GlobalCommands(c, files);
    if RebootDue(mode, uptime, hour, minute) then (g.0.(alive := false, returnCode := ExitReboot), g.1)
    else g
  }

  /** A periodic reboot due in the same pass overrides the code a global
      command file chose. */
  lemma RebootOverridesGlobalCommand(c: Control, files: Files, mode: RebootMode, uptime: int, hour: int, minute: int)
    requires mode.Interval? ==> mode.minutes > 0
    requires RebootDue(mode, uptime, hour, minute)
    ensures EndOfPass(c, files, mode, uptime, hour, minute).0.returnCode == ExitReboot
    ensures !EndOfPass(c, files, mode, uptime, hour, minute).0.alive
  {
  }

  // ---------------------------------------------------------------------
  // One pass of the loop

  /** The watchdog's state between passes. */
  datatype Watchdog = Watchdog(table: Table, files: Files, control: Control, reboot: RebootMode)

  predicate WatchdogValid(w: Watchdog)
  {
    TableValid(w.table) && RebootWellFormed(w.reboot)
    && forall j :: 0 <= j < MaxApps ==> |w.table.apps[j].name| < MaxAppNameLength
  }

  /** What udp_poll reports: a failure, or a datagram of `bytes` (empty when
      the wait timed out). */
  datatype Poll = PollFailed | Received(bytes: seq<char>)

  /** Everything from outside one pass: the poll, the monotonic clock when
      a datagram is handled, the uptime since the watchdog started, the
      local time, and for each application slot the clocks its turn reads
      and the system's answers. */
  datatype PassInput = PassInput(poll: Poll, mono: int, uptime: int, hour: int, minute: int,
                                 clocks: seq<Clocks>, outcomes: seq<Outcome>)

  predicate PassInputValid(p: PassInput)
  {
    |p.clocks| == MaxApps && |p.outcomes| == MaxApps
    && forall j :: 0 <= j < MaxApps ==> OutcomeValid(p.outcomes[j])
  }

  /** One pass of the main loop. A failed poll while the loop is still on
      only stops it; after a signal has stopped it the pass goes on. */
  function Pass(w: Watchdog, p: PassInput): (r: Watchdog)
    requires WatchdogValid(w) && PassInputValid(p)
    ensures WatchdogValid(r) && SameTableConfig(w.table, r.table) && r.reboot == w.reboot
    ensures p.poll.PollFailed? && w.control.alive ==> r == w.(control := w.control.(alive := false))
    ensures !w.control.alive ==> !r.control.alive
  {
    if p.poll.PollFailed? && w.control.alive then w.(control := w.control.(alive := false))
    else
      var t := if p.poll.Received? && |p.poll.bytes| > 0 then OnDatagram(w.table, p.poll.bytes, p.mono) else w.table;
      var scan := ScanFrom(t, w.files, p.clocks, p.outcomes, 0);
      var end := EndOfPass(w.control, scan.1, w.reboot, p.uptime, p.hour, p.minute);
      Watchdog(scan.0, end.1, end.0, w.reboot)
  }

  /** A wdtstop file present at the start of a pass stops the loop with
      code 0, unless the periodic reboot is due in the same pass: the
      application scan never touches the watchdog's own command files. */
  lemma StopFileStopsWatchdog(w: Watchdog, p: PassInput)
    requires WatchdogValid(w) && PassInputValid(p) && !p.poll.PollFailed?
    requires WdtStop in w.files
    ensures var r := Pass(w, p);
      !r.control.alive && WdtStop !in r.files
      && r.control.returnCode == (if RebootDue(w.reboot, p.uptime, p.hour, p.minute) then ExitReboot else ExitNormally)
  {
  }
}

=== FILE: test_child.dfy ===
/** test_child.py: the child the tests run under the watchdog. It waits
    about half its heartbeat delay, then sends "p" + pid and sleeps a random
    time between a third and a half of its heartbeat interval, over and
    over; 180 seconds after its first heartbeat its role decides whether it
    exits or stalls. The clock is a counter the sleeps advance, the random
    draw is a parameter, and a Python exception ends the child. */
module TestChild {
  import opened Limits
  import opened Utils
  import opened Apps
  import opened Heartbeat
  import Command

  /** Seconds after the first heartbeat at which the role acts. */
  const Ceiling := 180
  /** The stall of the "noheartbeat" role. */
  const Stall := 9000
  /** The interval used when the configured one is 0. */
  const DefaultInterval := 1000

  /** int(s) of a command-line argument: optional white space around an
      optionally signed run of decimal digits. */
  function PyInt(s: seq<char>): (r: Option<int>)
    ensures r.Some? ==> ScanInt(s, 0).Some? && r.value == ScanInt(s, 0).value.0
    ensures r.Some? <==> ScanInt(s, 0).Some? && SkipSpaces(s, ScanInt(s, 0).value.1) == |s|
  {
    match ScanInt(s, 0)
    case None => None
    case Some((v, e)) => if SkipSpaces(s, e) == |s| then Some(v) else None
  }

  /** The index argument: 1 when absent or not an integer. */
  function ParseIndex(arg: Option<seq<char>>): (index: int)
    ensures arg.None? ==> index == 1
    ensures arg.Some? && PyInt(arg.value).None? ==> index == 1
    ensures arg.Some? && PyInt(arg.value).Some? ==> index == PyInt(arg.value).value
  {
    match arg
    case None => 1
    case Some(s) => match PyInt(s) case None => 1 case Some(v) => v
  }

  /** An index written in decimal reads back. */
  lemma IndexRoundTrip(n: int)
    ensures ParseIndex(Some(SignedDecimal(n))) == n
  {
    ScanSignedDecimal(n, []);
    assert SignedDecimal(n) + [] == SignedDecimal(n);
  }

  /** The role argument: "crash" when absent. */
  function ParseRole(arg: Option<seq<char>>): (role: seq<char>)
    ensures arg.Some? ==> role == arg.value
    ensures arg.None? ==> role == "crash"
  {
    match arg case None => "crash" case Some(s) => s
  }

  /** int(heartbeat_delay / 2 + 1): the first sleep, rounded toward zero. */
  function InitialWait(delay: int): (w: int)
    ensures delay >= 0 ==> w == delay / 2 + 1
    ensures delay >= -3 <==> w >= 0
  {
    CDiv(delay + 2, 2)
  }

  /** For a heartbeat delay of 3 seconds or more the first heartbeat is
      sent before the delay is over. */
  lemma FirstHeartbeatEarly(delay: int)
    requires delay >= 3
    ensures 0 < InitialWait(delay) < delay
  {
  }

  /** The interval the loop uses: 1000 in place of 0. */
  function EffectiveInterval(interval: int): (i: int)
    ensures interval != 0 ==> i == interval
    ensures i != 0
  {
    if interval == 0 then DefaultInterval else interval
  }

  /** The bounds of random.randint(int(interval / 3), int(interval / 2)). */
  function WaitLow(interval: int): int { CDiv(interval, 3) }
  function WaitHigh(interval: int): int { CDiv(interval, 2) }

  /** A positive interval gives a non-empty range of non-negative waits,
      each shorter than the interval. */
  lemma WaitBoundsPositive(interval: int)
    requires interval > 0
    ensures 0 <= WaitLow(interval) <= WaitHigh(interval) < interval
  {
  }

  /** From -2 down, no wait can be slept: the range is empty or holds only
      negative values. */
  lemma WaitBoundsNegative(interval: int)
    requires interval <= -2
    ensures WaitHigh(interval) < 0
    ensures interval <= -6 ==> WaitLow(interval) > WaitHigh(interval)
  {
  }

  /** Whether a draw is one randint can return. */
  predicate ValidDraw(interval: int, w: int)
  {
    WaitLow(interval) <= w <= WaitHigh(interval)
  }

  /** Where the child is: in the loop, ended by sys.exit(status), or ended
      by an exception (a negative sleep or an empty randint range). */
  datatype Phase = Looping | Exited(status: int) | Raised

  /** The child's state: its pid, role and loop interval, the clock when
      the loop began and now, the clock reading of every heartbeat sent,
      and the phase. */
  datatype Child = Child(pid: nat, role: seq<char>, interval: int, start: int, clock: int,
                         sends: seq<int>, phase: Phase)

  /** The datagram the child sends. */
  function Payload(c: Child): seq<char>
  {
    Command.HeartbeatPayload(c.pid)
  }

  /** The child from its start until the loop begins, with the clock at
      `clock` when it starts. */
  function Launch(pid: nat, role: seq<char>, delay: int, interval: int, clock: int): (c: Child)
    ensures c.sends == []
    ensures c.phase == (if InitialWait(delay) < 0 then Raised else Looping)
    ensures c.phase == Looping ==> c.start == c.clock == clock + InitialWait(delay)
    ensures c.interval == EffectiveInterval(interval)
  {
    var w := InitialWait(delay);
    if w < 0 then Child(pid, role, EffectiveInterval(interval), clock, clock, [], Raised)
    else Child(pid, role, EffectiveInterval(interval), clock + w, clock + w, [], Looping)
  }

  /** One iteration of the loop with the draw `w`: send, sleep, then check
      the ceiling. */
  function Step(c: Child, w: int): (r: Child)
    requires c.phase == Looping
    requires WaitLow(c.interval) <= WaitHigh(c.interval) ==> ValidDraw(c.interval, w)
    ensures r.sends == c.sends + [c.clock]
    ensures r.pid == c.pid && r.role == c.role && r.interval == c.interval && r.start == c.start
    ensures r.phase == Raised <==> WaitHigh(c.interval) < 0 || WaitLow(c.interval) > WaitHigh(c.interval)
    ensures r.phase != Raised ==> r.clock >= c.clock + w
  {
    var sent := c.(sends := c.sends + [c.clock]);
    if WaitLow(c.interval) > WaitHigh(c.interval) || w < 0 then sent.(phase := Raised)
    else
      var after := sent.(clock := c.clock + w);
      if after.clock - c.start >= Ceiling then
        if c.role == "noheartbeat" then after.(clock := after.clock + Stall)
        else if c.role == "crash" then after.(phase := Exited(0))
        else after
      else after
  }

  /** Before the ceiling, the next heartbeat follows after exactly the
      draw, less than the interval later when the interval is positive. */
  lemma GapBelowInterval(c: Child, w: int)
    requires c.phase == Looping && c.interval > 0 && ValidDraw(c.interval, w)
    requires c.clock + w - c.start < Ceiling
    ensures Step(c, w).phase == Looping && Step(c, w).clock == c.clock + w < c.clock + c.interval
  {
    WaitBoundsPositive(c.interval);
  }

  /** A watchdog expecting heartbeats every `interval` seconds does not
      time the child out between two of its heartbeats before the ceiling. */
  lemma ChildMeetsDeadline(c: Child, w: int, a: App, later: int)
    requires c.phase == Looping && c.interval > 0 && ValidDraw(c.interval, w)
    requires c.clock + w - c.start < Ceiling
    requires a.heartbeatInterval == c.interval
    requires c.clock <= later <= Step(c, w).clock
    ensures !IsTimeout(UpdateTime(a, c.clock), later).timedOut
  {
    GapBelowInterval(c, w);
    NoTimeoutAfterUpdate(a, c.clock, later);
  }

  /** Every heartbeat is one the watchdog reads as its sender's pid. */
  lemma PayloadIsHeartbeat(c: Child)
    requires 0 < c.pid < IntMax
    ensures Command.ParseDatagram(Payload(c)) == Command.NetCommand(Command.Heartbeat, c.pid, [])
    ensures Command.ParseDatagramAsWritten(Payload(c)) == Command.NetCommand(Command.Heartbeat, c.pid, [])
  {
    Command.HeartbeatRoundTrip(c.pid);
  }

  /** Past the ceiling the "noheartbeat" role stays silent for at least the
      stall before the next heartbeat, and keeps looping. */
  lemma StallAfterCeiling(c: Child, w: int)
    requires c.phase == Looping && c.role == "noheartbeat" && c.interval > 0 && ValidDraw(c.interval, w)
    requires c.clock + w - c.start >= Ceiling
    ensures Step(c, w).phase == Looping && Step(c, w).clock >= c.clock + Stall
  {
    WaitBoundsPositive(c.interval);
  }

  /** Past the ceiling the "crash" role exits with status 0, for good. */
  lemma CrashAtCeiling(c: Child, w: int)
    requires c.phase == Looping && c.role == "crash" && c.interval > 0 && ValidDraw(c.interval, w)
    requires c.clock + w - c.start >= Ceiling
    ensures Step(c, w).phase == Exited(0)
  {
    WaitBoundsPositive(c.interval);
  }

  /** Any other role ignores the ceiling. */
  lemma OtherRolesIgnoreCeiling(c: Child, w: int)
    requires c.phase == Looping && c.role != "noheartbeat" && c.role != "crash"
    requires c.interval > 0 && ValidDraw(c.interval, w)
    ensures Step(c, w).phase == Looping && Step(c, w).clock == c.clock + w
  {
    WaitBoundsPositive(c.interval);
  }

  /** The loop run with a sequence of draws; it stops consuming draws once
      the child has ended. When randint's range is empty no draw is made,
      and the first iteration sends and raises whatever `draws` holds. */
  function Run(c: Child, draws: seq<int>): (r: Child)
    requires WaitLow(c.interval) <= WaitHigh(c.interval) ==>
      forall k :: 0 <= k < |draws| ==> ValidDraw(c.interval, draws[k])
    ensures r.interval == c.interval && r.start == c.start && r.role == c.role
    ensures c.phase != Looping ==> r == c
    ensures |r.sends| <= |c.sends| + |draws|
    decreases |draws|
  {
    if draws == [] || c.phase != Looping then c
    else Run(Step(c, draws[0]), draws[1..])
  }

  /** A "crash" child whose interval is at least 3 sleeps at least a second
      per heartbeat, so it has exited within 180 heartbeats after its
      first. */
  lemma {:induction false} CrashChildEnds(c: Child, draws: seq<int>)
    requires c.phase == Looping && c.role == "crash" && c.interval >= 3
    requires c.start <= c.clock < c.start + Ceiling
    requires forall k :: 0 <= k < |draws| ==> ValidDraw(c.interval, draws[k])
    requires |draws| >= Ceiling - (c.clock - c.start)
    ensures Run(c, draws).phase == Exited(0)
    decreases |draws|
  {
    WaitBoundsPositive(c.interval);
    var w := draws[0];
    var next := Step(c, w);
    assert w >= 1;
    if c.clock + w - c.start >= Ceiling {
      assert next.phase == Exited(0);
      assert Run(c, draws) == Run(next, draws[1..]);
    } else {
      assert next.phase == Looping && next.clock == c.clock + w;
      CrashChildEnds(next, draws[1..]);
    }
  }

  /** With randint's range empty, the first iteration sends one heartbeat
      and then raises, ending the child. */
  lemma EmptyRangeSendsThenRaises(c: Child, draws: seq<int>)
    requires c.phase == Looping && WaitLow(c.interval) > WaitHigh(c.interval) && draws != []
    ensures Run(c, draws).phase == Raised
    ensures Run(c, draws).sends == c.sends + [c.clock]
  {
    assert Run(c, draws) == Run(Step(c, draws[0]), draws[1..]);
  }
}

=== FILE: utils.dfy ===
/** The string and number helpers of utils.c, over `seq<char>` (C strings,
    given as the characters before their terminator unless a member says
    otherwise) and `seq<bv8>` (raw memory). */
module Utils {
  import opened Limits

  const Nul: char := 0 as char

  predicate IsDigit(c: char) { '0' <= c <= '9' }

  /** isspace() in the C locale. */
  predicate IsSpace(c: char) { c == ' ' || 9 <= c as int <= 13 }

  function DigitValue(c: char): nat
    requires IsDigit(c)
  {
    c as int - '0' as int
  }

  function DigitChar(d: nat): (c: char)
    requires d < 10
    ensures IsDigit(c) && DigitValue(c) == d
  {
    ('0' as int + d) as char
  }

  predicate AllDigits(s: seq<char>) { forall i :: 0 <= i < |s| ==> IsDigit(s[i]) }

  /** The number a run of decimal digits denotes, read most significant first. */
  function DigitsValue(s: seq<char>): nat
    requires AllDigits(s)
    decreases |s|
  {
    if |s| == 0 then 0 else 10 * DigitsValue(s[..|s| - 1]) + DigitValue(s[|s| - 1])
  }

  /** Decimal representation of a natural number, without leading zeros
      (Python's str() and C's "%d"). */
  function Decimal(n: nat): (r: seq<char>)
    ensures |r| >= 1 && AllDigits(r)
    ensures n > 0 ==> r[0] != '0'
    decreases n
  {
    if n < 10 then [DigitChar(n)] else Decimal(n / 10) + [DigitChar(n % 10)]
  }

  /** Decimal representation of any integer, with a leading '-' when negative. */
  function SignedDecimal(n: int): (r: seq<char>)
    ensures |r| >= 1
  {
    if n < 0 then ['-'] + Decimal(-n) else Decimal(n)
  }

  lemma {:induction false} DecimalValue(n: nat)
    ensures DigitsValue(Decimal(n)) == n
    decreases n
  {
    if n >= 10 {
      var d := Decimal(n);
      assert d[..|d| - 1] == Decimal(n / 10);
      DecimalValue(n / 10);
    }
  }

  // ---------------------------------------------------------------------
  // parse_number

  /** Index of the first digit or '-' at or after `i`, or |s| if there is none. */
  function SkipToNumber(s: seq<char>, i: nat): (k: nat)
    requires i <= |s|
    ensures i <= k <= |s|
    ensures forall j :: i <= j < k ==> !IsDigit(s[j]) && s[j] != '-'
    ensures k < |s| ==> IsDigit(s[k]) || s[k] == '-'
    decreases |s| - i
  {
    if i == |s| || IsDigit(s[i]) || s[i] == '-' then i else SkipToNumber(s, i + 1)
  }

  /** The digit loop of parse_number: accumulates digits from index `i`
      while the index stays below `length`; with `wrap` every step is
      stored into a 32-bit int. Returns the sum and the index reached. */
  function Accumulate(s: seq<char>, i: nat, length: int, sum: int, wrap: bool): (r: (int, nat))
    requires i <= |s|
    ensures i <= r.1 <= |s|
    ensures forall j :: i <= j < r.1 ==> IsDigit(s[j])
    ensures r.1 > i ==> r.1 <= length
    ensures r.1 == |s| || !IsDigit(s[r.1]) || r.1 >= length
    decreases |s| - i
  {
    if i < |s| && IsDigit(s[i]) && i < length then
      var next := 10 * sum + DigitValue(s[i]);
      Accumulate(s, i + 1, length, if wrap then Wrap32(next) else next, wrap)
    else
      (sum, i)
  }

  /** Result of parse_number: the number and the count of characters used
      (the `*cnt` out-parameter). */
  datatype NumberScan = NumberScan(value: int, consumed: nat)

  /** parse_number over the memory `s` its pointer reaches. The skip loop
      of the source does not stop at a terminator; when no digit or '-' is
      found in `s` the source would read past it, and the model answers None. */
  function ParseNumberWith(s: seq<char>, length: int, wrap: bool): Option<NumberScan>
  {
    var k := SkipToNumber(s, 0);
    if k == |s| then None
    else
      var minus := s[k] == '-';
      var start := if minus then k + 1 else k;
      var (sum, end) := Accumulate(s, start, length, 0, wrap);
      var v := if minus then 0 - sum else sum;
      Some(NumberScan(if wrap then Wrap32(v) else v, end))
  }

  /** parse_number as its int accumulator behaves on a two's-complement
      machine: every step wraps to 32 bits. */
  function ParseNumberAsWritten(s: seq<char>, length: int): Option<NumberScan>
  {
    ParseNumberWith(s, length, true)
  }

  /** parse_number with an accumulator wide enough for any input: skips
      characters that are neither digits nor '-', takes one optional '-',
      then the digits that lie below index `length`. */
  function ParseNumber(s: seq<char>, length: int): (r: Option<NumberScan>)
    ensures r.None? <==> forall j :: 0 <= j < |s| ==> !IsDigit(s[j]) && s[j] != '-'
    ensures r.Some? ==>
      var k := SkipToNumber(s, 0);
      var start := if s[k] == '-' then k + 1 else k;
      && start <= r.value.consumed <= |s|
      && AllDigits(s[start..r.value.consumed])
      && (r.value.consumed > start ==> r.value.consumed <= length)
      && (r.value.consumed == |s| || !IsDigit(s[r.value.consumed]) || r.value.consumed >= length)
      && r.value.value == (if s[k] == '-' then -1 else 1) * DigitsValue(s[start..r.value.consumed])
  {
    var k := SkipToNumber(s, 0);
    if k < |s| then
      var start := if s[k] == '-' then k + 1 else k;
      AccumulateValue(s, start, start, length);
      ParseNumberWith(s, length, false)
    else
      ParseNumberWith(s, length, false)
  }

  /** Accumulating without wrap-around computes the value of the digits read. */
  lemma {:induction false} AccumulateValue(s: seq<char>, start: nat, i: nat, length: int)
    requires start <= i <= |s|
    requires AllDigits(s[start..i])
    ensures var (sum, end) := Accumulate(s, i, length, DigitsValue(s[start..i]), false);
      AllDigits(s[start..end]) && sum == DigitsValue(s[start..end])
    decreases |s| - i
  {
    if i < |s| && IsDigit(s[i]) && i < length {
      var t := s[start..i + 1];
      assert t[..|t| - 1] == s[start..i];
      AccumulateValue(s, start, i + 1, length);
    }
  }

  /** Accumulating with 32-bit wrap-around computes the wrapped value of
      the unbounded accumulation, and stops at the same index. */
  lemma {:induction false} AccumulateWraps(s: seq<char>, i: nat, length: int, sum: int)
    requires i <= |s|
    ensures Accumulate(s, i, length, Wrap32(sum), true)
      == (Wrap32(Accumulate(s, i, length, sum, false).0), Accumulate(s, i, length, sum, false).1)
    decreases |s| - i
  {
    if i < |s| && IsDigit(s[i]) && i < length {
      var w := Wrap32(sum);
      var d := DigitValue(s[i]);
      var k := (sum - w) / TwoTo32;
      assert sum - w == k * TwoTo32;
      assert 10 * w + d == (10 * sum + d) + (-10 * k) * TwoTo32;
      Wrap32Shift(10 * sum + d, -10 * k);
      AccumulateWraps(s, i + 1, length, 10 * sum + d);
    }
  }

  /** The source's parse_number returns the 32-bit wrap of the number that
      the digits denote. */
  lemma ParseNumberAsWrittenWraps(s: seq<char>, length: int)
    ensures ParseNumberAsWritten(s, length).None? <==> ParseNumber(s, length).None?
    ensures ParseNumber(s, length).Some? ==>
      ParseNumberAsWritten(s, length)
        == Some(NumberScan(Wrap32(ParseNumber(s, length).value.value), ParseNumber(s, length).value.consumed))
  {
    var k := SkipToNumber(s, 0);
    if k < |s| {
      var start := if s[k] == '-' then k + 1 else k;
      AccumulateWraps(s, start, length, 0);
      var sum := Accumulate(s, start, length, 0, false).0;
      var w := Wrap32(sum);
      var q := (sum - w) / TwoTo32;
      assert sum - w == q * TwoTo32;
      assert 0 - w == (0 - sum) + q * TwoTo32;
      Wrap32Shift(0 - sum, q);
    }
  }

  // ---------------------------------------------------------------------
  // strtol and parse_int

  /** Index after the white space that starts at `i`. */
  function SkipSpaces(s: seq<char>, i: nat): (k: nat)
    requires i <= |s|
    ensures i <= k <= |s|
    ensures forall j :: i <= j < k ==> IsSpace(s[j])
    ensures k == |s| || !IsSpace(s[k])
    decreases |s| - i
  {
    if i < |s| && IsSpace(s[i]) then SkipSpaces(s, i + 1) else i
  }

  /** Index after the run of digits that starts at `i`. */
  function DigitRunEnd(s: seq<char>, i: nat): (e: nat)
    requires i <= |s|
    ensures i <= e <= |s|
    ensures AllDigits(s[i..e])
    ensures e == |s| || !IsDigit(s[e])
    decreases |s| - i
  {
    if i < |s| && IsDigit(s[i]) then DigitRunEnd(s, i + 1) else i
  }

  lemma {:induction false} DigitRunEndIs(s: seq<char>, i: nat, e: nat)
    requires i <= e <= |s|
    requires AllDigits(s[i..e])
    requires e == |s| || !IsDigit(s[e])
    ensures DigitRunEnd(s, i) == e
    decreases e - i
  {
    if i < e {
      assert IsDigit(s[i]) by { assert s[i..e][0] == s[i]; }
      assert s[i + 1..e] == s[i..e][1..];
      DigitRunEndIs(s, i + 1, e);
    }
  }

  /** One "%d" conversion (and the number strtol reads in base 10): white
      space, an optional sign, then at least one digit. Returns the value
      and the index after the last digit, or None when there is no digit. */
  function ScanInt(s: seq<char>, i: nat): Option<(int, nat)>
    requires i <= |s|
  {
    var j := SkipSpaces(s, i);
    var signed := j < |s| && (s[j] == '-' || s[j] == '+');
    var k := if signed then j + 1 else j;
    var e := DigitRunEnd(s, k);
    if e == k then None
    else
      var v: int := DigitsValue(s[k..e]);
      var value: int := if signed && s[j] == '-' then -v else v;
      Some((value, e))
  }

  /** What strtol(s, &endptr, 10) returns: the value (clamped to the long
      range), the offset of endptr (0 when no digits were read), and
      whether errno was set to ERANGE. */
  datatype StrToLResult = StrToLResult(value: int, end: nat, overflow: bool)

  function StrToL(s: seq<char>): (r: StrToLResult)
    ensures r.end <= |s|
    ensures LongMin <= r.value <= LongMax
    ensures ScanInt(s, 0).None? ==> r == StrToLResult(0, 0, false)
    ensures ScanInt(s, 0).Some? ==> r.end == ScanInt(s, 0).value.1 > 0
    ensures ScanInt(s, 0).Some? ==>
      (r.overflow <==> !(LongMin <= ScanInt(s, 0).value.0 <= LongMax))
    ensures ScanInt(s, 0).Some? && !r.overflow ==> r.value == ScanInt(s, 0).value.0
    ensures ScanInt(s, 0).Some? && ScanInt(s, 0).value.0 > LongMax ==> r.value == LongMax
    ensures ScanInt(s, 0).Some? && ScanInt(s, 0).value.0 < LongMin ==> r.value == LongMin
  {
    match ScanInt(s, 0)
    case None => StrToLResult(0, 0, false)
    case Some((v, e)) =>
      if v > LongMax then StrToLResult(LongMax, e, true)
      else if v < LongMin then StrToLResult(LongMin, e, true)
      else StrToLResult(v, e, false)
  }

  /** The C string ends at offset `e`: the end of the buffer or a NUL. */
  predicate EndsAt(s: seq<char>, e: nat)
  {
    e == |s| || (e < |s| && s[e] == Nul)
  }

  /** parse_int: strtol must consume the whole string without ERANGE and
      the value must lie in [lo, hi]; the result is produced only on
      success. Without digits strtol reads 0 and consumes nothing, so
      the empty string is 0. */
  function ParseInt(s: seq<char>, lo: int, hi: int): (r: Option<int>)
    ensures r.Some? ==> lo <= r.value <= hi
    ensures r.Some? && s != [] && s[0] != Nul ==> ScanInt(s, 0).Some? && r.value == ScanInt(s, 0).value.0
    ensures ScanInt(s, 0).Some? ==>
      (r.Some? <==> var (v, e) := ScanInt(s, 0).value;
                    LongMin <= v <= LongMax && EndsAt(s, e) && lo <= v <= hi)
    ensures ScanInt(s, 0).None? ==> (r.Some? <==> EndsAt(s, 0) && lo <= 0 <= hi)
    ensures ScanInt(s, 0).None? && r.Some? ==> r.value == 0
  {
    var t := StrToL(s);
    if t.overflow || !(t.end == |s| || s[t.end] == Nul) || t.value < lo || t.value > hi then None
    else Some(t.value)
  }

  /** "%d" and strtol read back what SignedDecimal wrote, stopping at the
      first character that is not a digit. */
  lemma ScanSignedDecimal(n: int, rest: seq<char>)
    requires rest == [] || !IsDigit(rest[0])
    ensures ScanInt(SignedDecimal(n) + rest, 0) == Some((n, |SignedDecimal(n)|))
  {
    var s := SignedDecimal(n) + rest;
    assert s[0..|SignedDecimal(n)|] == SignedDecimal(n);
    ScanSignedDecimalAt(s, 0, n);
  }

  /** The same at any offset of a longer string. */
  lemma ScanSignedDecimalAt(s: seq<char>, k: nat, n: int)
    requires k + |SignedDecimal(n)| <= |s|
    requires s[k..k + |SignedDecimal(n)|] == SignedDecimal(n)
    requires k + |SignedDecimal(n)| == |s| || !IsDigit(s[k + |SignedDecimal(n)|])
    ensures ScanInt(s, k) == Some((n, k + |SignedDecimal(n)|))
  {
    var sd := SignedDecimal(n);
    var d := Decimal(Abs(n));
    var sign := if n < 0 then 1 else 0;
    assert s[k] == sd[0];
    assert SkipSpaces(s, k) == k;
    assert s[k + sign..k + sign + |d|] == d by {
      assert sd[sign..] == d;
      assert s[k + sign..k + sign + |d|] == sd[sign..];
    }
    DigitRunEndIs(s, k + sign, k + sign + |d|);
    DecimalValue(Abs(n));
  }

  /** Round trip: parse_int accepts the decimal form of every value in range. */
  lemma ParseIntDecimal(n: int, lo: int, hi: int)
    requires lo <= n <= hi
    requires LongMin <= n <= LongMax
    ensures ParseInt(SignedDecimal(n), lo, hi) == Some(n)
  {
    ScanSignedDecimal(n, []);
    assert SignedDecimal(n) + [] == SignedDecimal(n);
  }

  /** parse_int rejects the decimal form of a value outside [lo, hi]. */
  lemma ParseIntOutOfRange(n: int, lo: int, hi: int)
    requires n < lo || n > hi
    ensures ParseInt(SignedDecimal(n), lo, hi) == None
  {
    ScanSignedDecimal(n, []);
    assert SignedDecimal(n) + [] == SignedDecimal(n);
  }

  /** parse_int rejects a number followed by anything but the terminator. */
  lemma ParseIntTrailing(n: int, c: char, lo: int, hi: int)
    requires !IsDigit(c) && c != Nul
    ensures ParseInt(SignedDecimal(n) + [c], lo, hi) == None
  {
    ScanSignedDecimal(n, [c]);
  }

  // ---------------------------------------------------------------------
  // pstrcpy

  /** strlen over a memory region that holds a terminator. */
  function StrLen(s: seq<char>): (n: nat)
    requires Nul in s
    ensures n < |s| && s[n] == Nul && Nul !in s[..n]
    decreases |s|
  {
    if s[0] == Nul then 0
    else
      assert Nul in s[1..] by { var i :| 0 <= i < |s| && s[i] == Nul; assert s[1..][i - 1] == Nul; }
      var n := StrLen(s[1..]);
      assert s[..n + 1] == [s[0]] + s[1..][..n];
      n + 1
  }

  /** The C string a pointer to `s` designates: the characters before the
      first terminator, or all of `s` when the region holds none. */
  function CString(s: seq<char>): (r: seq<char>)
    ensures r <= s && Nul !in r
    ensures |r| < |s| ==> s[|r|] == Nul
  {
    if |s| == 0 || s[0] == Nul then [] else [s[0]] + CString(s[1..])
  }

  /** strncpy(dst, src, n) followed by dst[n] = '\0': the string in `src`,
      cut to at most `n` characters. */
  function StrNCopy(src: seq<char>, n: nat): (r: seq<char>)
    ensures |r| <= n && r <= CString(src)
    ensures |r| < n ==> r == CString(src)
  {
    var c := CString(src);
    if |c| <= n then c else c[..n]
  }

  /** The C string of a string followed by its terminator. */
  lemma {:induction false} CStringOf(name: seq<char>)
    requires Nul !in name
    ensures CString(name + [Nul]) == name
  {
    if name != [] {
      assert (name + [Nul])[1..] == name[1..] + [Nul];
      CStringOf(name[1..]);
    }
  }

  /** pstrcpy(buf + at, src): copies the string in `src`, terminator
      included, into `buf` from `at`, and returns the index of the copied
      terminator (s1 + strlen(s2)). */
  method PStrCpy(buf: seq<char>, at: nat, src: seq<char>) returns (out: seq<char>, end: nat)
    requires Nul in src
    requires at + StrLen(src) < |buf|
    ensures end == at + StrLen(src)
    ensures |out| == |buf|
    ensures out[..at] == buf[..at]
    ensures out[at..end] == src[..StrLen(src)]
    ensures out[end] == Nul
    ensures out[end + 1..] == buf[end + 1..]
  {
    var n := StrLen(src);
    out := buf;
    var i := 0;
    while src[i] != Nul
      invariant 0 <= i <= n
      invariant |out| == |buf|
      invariant forall k :: 0 <= k < at ==> out[k] == buf[k]
      invariant forall k :: 0 <= k < i ==> out[at + k] == src[k]
      invariant forall k :: at + i <= k < |out| ==> out[k] == buf[k]
      decreases n - i
    {
      if i == n {
        assert false;
      }
      assert src[i] == src[..n][i];
      out := out[at + i := src[i]];
      i := i + 1;
    }
    out := out[at + i := Nul];
    end := at + i;
    assert out[at..end] == src[..n] by {
      forall k | 0 <= k < n
        ensures out[at..end][k] == src[..n][k]
      {
        assert out[at + k] == src[k];
      }
    }
  }

  // ---------------------------------------------------------------------
  // crc16

  /** One byte of crc16's loop, exactly as the source computes it: `x`
      is an unsigned char, so it keeps the low eight bits, and each
      shifted term is truncated to 16 bits. */
  function Crc16Step(crc: bv16, b: bv8): bv16
  {
    var x: bv16 := ((crc >> 8) ^ (b as bv16)) & 0xFF;
    var y: bv16 := x ^ (x >> 4);
    (crc << 8) ^ (y << 12) ^ (y << 5) ^ y
  }

  function Crc16From(crc: bv16, data: seq<bv8>): bv16
    decreases |data|
  {
    if |data| == 0 then crc else Crc16From(Crc16Step(crc, data[0]), data[1..])
  }

  /** Reference definition: the bit-serial CRC with generator polynomial
      0x1021, most significant bit first. A byte is xored into the high
      half of the register, which is then shifted once per bit; a one
      shifted out of bit 15 xors the polynomial into the register. */
  function ShiftBit(crc: bv16): bv16
  {
    (crc << 1) ^ (0x1021 & (0 - (crc >> 15)))
  }

  function ShiftTimes(crc: bv16, n: nat): bv16
    decreases n
  {
    if n == 0 then crc else ShiftTimes(ShiftBit(crc), n - 1)
  }

  function ReferenceByte(crc: bv16, b: bv8): bv16
  {
    ShiftTimes(crc ^ ((b as bv16) << 8), 8)
  }

  function ReferenceFrom(crc: bv16, data: seq<bv8>): bv16
    decreases |data|
  {
    if |data| == 0 then crc else ReferenceFrom(ReferenceByte(crc, data[0]), data[1..])
  }

  // The equivalence is proved in small steps over named register
  // values: one shift, four shifts (a nibble), two nibbles (a byte).

  predicate ShiftsTo(c: bv16, d: bv16)
  {
    d == (c << 1) ^ (0x1021 & (0 - (c >> 15)))
  }

  /** Four shifts at once, without a table: the polynomial's next term
      below x^16 is x^12, so the four feedback bits do not interfere. */
  predicate NibbleTo(c: bv16, d: bv16)
  {
    d == (c << 4) ^ ((c >> 12) << 12) ^ ((c >> 12) << 5) ^ (c >> 12)
  }

  /** The source's formula for a byte whose value is `w`. */
  predicate ByteFormula(crc: bv16, w: bv16, d: bv16)
  {
    var x: bv16 := ((crc >> 8) ^ w) & 0xFF;
    var y: bv16 := x ^ (x >> 4);
    d == (crc << 8) ^ (y << 12) ^ (y << 5) ^ y
  }

  lemma ShiftBitShifts(c: bv16)
    ensures ShiftsTo(c, ShiftBit(c))
  {
  }

  lemma FourShifts(c0: bv16, c1: bv16, c2: bv16, c3: bv16, c4: bv16)
    requires ShiftsTo(c0, c1) && ShiftsTo(c1, c2) && ShiftsTo(c2, c3) && ShiftsTo(c3, c4)
    ensures NibbleTo(c0, c4)
  {
  }

  /** Two nibble steps after xoring the byte in are the source's formula. */
  lemma TwoNibbles(crc: bv16, b: bv8, c4: bv16, c8: bv16)
    requires NibbleTo(crc ^ ((b as bv16) << 8), c4) && NibbleTo(c4, c8)
    ensures ByteFormula(crc, b as bv16, c8)
  {
  }

  /** The value the byte formula gives is the source's result. */
  lemma StepFormula(crc: bv16, b: bv8, d: bv16)
    requires ByteFormula(crc, b as bv16, d)
    ensures d == Crc16Step(crc, b)
  {
  }

  /** The register two nibble steps make of the register with the byte
      xored in is the source's result. */
  lemma StepMatchesNibbles(crc: bv16, b: bv8, c4: bv16, c8: bv16)
    requires NibbleTo(crc ^ ((b as bv16) << 8), c4) && NibbleTo(c4, c8)
    ensures Crc16Step(crc, b) == c8
  {
    TwoNibbles(crc, b, c4, c8);
    StepFormula(crc, b, c8);
  }

  lemma UnrollFour(c0: bv16, c1: bv16, c2: bv16, c3: bv16, c4: bv16)
    requires c1 == ShiftBit(c0) && c2 == ShiftBit(c1) && c3 == ShiftBit(c2) && c4 == ShiftBit(c3)
    ensures ShiftTimes(c0, 4) == c4
  {
    assert ShiftTimes(c0, 4) == ShiftTimes(c1, 3) == ShiftTimes(c2, 2) == ShiftTimes(c3, 1) == ShiftTimes(c4, 0);
  }

  /** Four reference shifts are one nibble step. */
  lemma NibbleIsFourShifts(c0: bv16)
    ensures NibbleTo(c0, ShiftTimes(c0, 4))
  {
    var c1 := ShiftBit(c0);
    var c2 := ShiftBit(c1);
    var c3 := ShiftBit(c2);
    var c4 := ShiftBit(c3);
    ShiftBitShifts(c0);
    ShiftBitShifts(c1);
    ShiftBitShifts(c2);
    ShiftBitShifts(c3);
    FourShifts(c0, c1, c2, c3, c4);
    UnrollFour(c0, c1, c2, c3, c4);
  }

  lemma {:induction false} ShiftTimesAdd(c: bv16, m: nat, n: nat)
    ensures ShiftTimes(c, m + n) == ShiftTimes(ShiftTimes(c, m), n)
    decreases m
  {
    if m > 0 {
      ShiftTimesAdd(ShiftBit(c), m - 1, n);
    }
  }

  /** The source's byte-wise formula is the bit-serial CRC of one byte. */
  lemma StepIsReference(crc: bv16, b: bv8)
    ensures Crc16Step(crc, b) == ReferenceByte(crc, b)
  {
    var c0 := crc ^ ((b as bv16) << 8);
    var c4 := ShiftTimes(c0, 4);
    ShiftTimesAdd(c0, 4, 4);
    NibbleIsFourShifts(c0);
    NibbleIsFourShifts(c4);
    StepMatchesNibbles(crc, b, c4, ShiftTimes(c4, 4));
  }

  lemma {:induction false} FromIsReference(crc: bv16, data: seq<bv8>)
    ensures Crc16From(crc, data) == ReferenceFrom(crc, data)
    decreases |data|
  {
    if |data| > 0 {
      StepIsReference(crc, data[0]);
      FromIsReference(Crc16Step(crc, data[0]), data[1..]);
    }
  }

  /** crc16(data, length): the CRC with polynomial 0x1021 and initial value
      0xFFFF. The length parameter is an unsigned char, so at most 255
      bytes can be named. */
  function Crc16(data: seq<bv8>): (r: bv16)
    requires |data| <= 0xFF
    ensures |data| == 0 ==> r == 0xFFFF
    ensures r == ReferenceFrom(0xFFFF, data)
  {
    FromIsReference(0xFFFF, data);
    Crc16From(0xFFFF, data)
  }

  /** The catalogued check value of the CRC with polynomial 0x1021,
      initial value 0xFFFF, no reflection and no final xor
      (CRC-16/CCITT-FALSE): the CRC of the ASCII digits "123456789". */
  lemma Crc16CheckValue()
    ensures Crc16([0x31, 0x32, 0x33, 0x34, 0x35, 0x36, 0x37, 0x38, 0x39]) == 0x29B1
  {
  }

  /** The CRC of a concatenation continues from the CRC of its first part. */
  lemma {:induction false} Crc16Append(a: seq<bv8>, b: seq<bv8>, crc: bv16)
    ensures Crc16From(crc, a + b) == Crc16From(Crc16From(crc, a), b)
    decreases |a|
  {
    if |a| > 0 {
      assert (a + b)[0] == a[0];
      assert (a + b)[1..] == a[1..] + b;
      assert Crc16From(crc, a + b) == Crc16From(Crc16Step(crc, a[0]), a[1..] + b);
      Crc16Append(a[1..], b, Crc16Step(crc, a[0]));
    } else {
      assert a + b == b;
    }
  }

  // ---------------------------------------------------------------------
  // findin

  predicate MatchAt(h: seq<bv8>, n: seq<bv8>, i: nat)
  {
    i + |n| <= |h| && h[i..i + |n|] == n
  }

  /** The first offset in [i, bound) at which `n` occurs in `h`. */
  function FirstMatch(h: seq<bv8>, n: seq<bv8>, i: nat, bound: nat): (r: Option<nat>)
    ensures r.Some? ==> i <= r.value < bound && MatchAt(h, n, r.value)
    ensures r.Some? ==> forall j :: i <= j < r.value ==> !MatchAt(h, n, j)
    ensures r.None? ==> forall j :: i <= j < bound ==> !MatchAt(h, n, j)
    decreases bound - i
  {
    if i >= bound then None
    else if MatchAt(h, n, i) then Some(i)
    else FirstMatch(h, n, i + 1, bound)
  }

  /** findin as written: after the equal-size case it scans offsets
      [0, hs - ns) only. */
  function FindInAsWritten(h: seq<bv8>, n: seq<bv8>): Option<nat>
  {
    if |n| > |h| then None
    else if |h| == |n| then (if h == n then Some(0) else None)
    else FirstMatch(h, n, 0, |h| - |n|)
  }

  /** findin with the scan covering every offset at which the needle fits:
      the first occurrence of `n` in `h`, or None when there is none. */
  function FindIn(h: seq<bv8>, n: seq<bv8>): (r: Option<nat>)
    ensures r.Some? ==> MatchAt(h, n, r.value) && forall j :: 0 <= j < r.value ==> !MatchAt(h, n, j)
    ensures r.None? <==> forall j :: 0 <= j ==> !MatchAt(h, n, j)
  {
    if |n| > |h| then None else FirstMatch(h, n, 0, |h| - |n| + 1)
  }

  /** The source misses a needle that occurs only at the last offset:
      findin("abc", "bc") answers NULL. */
  lemma FindInMissesLastOffset()
    ensures MatchAt([0x61, 0x62, 0x63], [0x62, 0x63], 1)
    ensures FindInAsWritten([0x61, 0x62, 0x63], [0x62, 0x63]) == None
    ensures FindIn([0x61, 0x62, 0x63], [0x62, 0x63]) == Some(1)
  {
    var h: seq<bv8> := [0x61, 0x62, 0x63];
    var n: seq<bv8> := [0x62, 0x63];
    assert h[1..3] == n;
    assert h[0..2] != n by { assert h[0..2][0] == 0x61; }
  }

  /** Where both answer, the source agrees with the corrected search; the
      two differ only when the sole occurrence is at the last offset. */
  lemma FindInAsWrittenAgrees(h: seq<bv8>, n: seq<bv8>)
    ensures FindInAsWritten(h, n).Some? ==> FindInAsWritten(h, n) == FindIn(h, n)
    ensures FindInAsWritten(h, n) != FindIn(h, n) ==>
      |n| < |h| && FindIn(h, n) == Some(|h| - |n|)
  {
    if |n| == |h| {
      assert MatchAt(h, n, 0) <==> h == n by { assert h[0..|n|] == h; }
    }
  }

  // ---------------------------------------------------------------------
  // sgets

  /** What sgets leaves behind: the characters written to the output
      buffer, whether a terminator follows them, and the rest of the source
      string that the advanced source pointer designates. */
  datatype Line = Line(text: seq<char>, terminated: bool, rest: seq<char>)

  /** sgets(s, n, &src): reads one line of at most n - 1 characters from
      the string `src` (its characters before the terminator). */
  method Sgets(src: seq<char>, n: int) returns (r: Option<Line>)
    requires Nul !in src
    ensures src == [] <==> r.None?
    ensures r.Some? ==> r.value.text + r.value.rest == src
    ensures r.Some? ==> (r.value.terminated <==> n >= 1)
    ensures r.Some? ==> |r.value.text| <= Max(n - 1, 0)
    ensures r.Some? ==> forall j :: 0 <= j < |r.value.text| - 1 ==> r.value.text[j] != '\n'
    ensures r.Some? ==>
      || (|r.value.text| > 0 && r.value.text[|r.value.text| - 1] == '\n')
      || |r.value.text| == Max(n - 1, 0)
      || r.value.rest == []
  {
    if |src| == 0 {
      return None;
    }
    var i := 0;
    var pos := 0;
    var text: seq<char> := [];
    var terminated := false;
    while i < n - 1
      invariant 0 <= i == pos == |text| <= |src|
      invariant i <= Max(n - 1, 0)
      invariant text == src[..pos]
      invariant forall j :: 0 <= j < |text| ==> text[j] != '\n'
      decreases n - 1 - i
    {
      if pos == |src| {
        terminated := true;
        break;
      }
      text := text + [src[pos]];
      if src[pos] == '\n' {
        terminated := true;
        pos := pos + 1;
        break;
      }
      i := i + 1;
      pos := pos + 1;
    }
    if i == n - 1 {
      terminated := true;
    }
    assert text == src[..pos];
    return Some(Line(text, terminated, src[pos..]));
  }

  // ---------------------------------------------------------------------
  // substring and toLower

  /** substring(s, sub, p, l): the `l` characters of `s` from 1-based
      position `p`; the source writes the terminator at sub[l]. */
  function Substring(s: seq<char>, p: int, l: int): (sub: seq<char>)
    requires l > 0 ==> 1 <= p && p - 1 + l <= |s|
    ensures |sub| == Max(l, 0)
    ensures forall c :: 0 <= c < |sub| ==> sub[c] == s[p + c - 1]
  {
    if l <= 0 then [] else s[p - 1..p - 1 + l]
  }

  /** Adjacent substrings concatenate to the substring spanning both. */
  lemma SubstringSplit(s: seq<char>, p: int, a: nat, b: nat)
    requires 1 <= p && p - 1 + a + b <= |s|
    ensures Substring(s, p, a) + Substring(s, p + a, b) == Substring(s, p, a + b)
  {
  }

  /** tolower() in the C locale. */
  function LowerChar(c: char): char
  {
    if 'A' <= c <= 'Z' then (c as int + 32) as char else c
  }

  predicate IsUpper(c: char) { 'A' <= c <= 'Z' }

  /** Two strings equal up to letter case. */
  predicate EqualIgnoringCase(a: seq<char>, b: seq<char>)
  {
    |a| == |b| && forall i :: 0 <= i < |a| ==> LowerChar(a[i]) == LowerChar(b[i])
  }

  /** toLower(s): lower-cases the string in place. The result is the one
      string without upper-case letters that equals `s` up to letter case;
      every character that is not an upper-case letter stays. */
  function ToLower(s: seq<char>): (r: seq<char>)
    ensures forall i :: 0 <= i < |r| ==> !IsUpper(r[i])
    ensures EqualIgnoringCase(r, s)
    ensures forall i :: 0 <= i < |s| && !IsUpper(s[i]) ==> r[i] == s[i]
  {
    seq(|s|, i requires 0 <= i < |s| => LowerChar(s[i]))
  }

  /** Lower-casing is determined by its contract: a string without
      upper-case letters equal to `s` up to case is ToLower(s). */
  lemma ToLowerUnique(s: seq<char>, r: seq<char>)
    requires forall i :: 0 <= i < |r| ==> !IsUpper(r[i])
    requires EqualIgnoringCase(r, s)
    ensures r == ToLower(s)
  {
    forall i | 0 <= i < |r|
      ensures r[i] == ToLower(s)[i]
    {
      assert LowerChar(r[i]) == r[i];
    }
  }

  /** Lower-casing leaves no upper-case letter and is idempotent. */
  lemma ToLowerIdempotent(s: seq<char>)
    ensures forall i :: 0 <= i < |s| ==> !IsUpper(ToLower(s)[i])
    ensures ToLower(ToLower(s)) == ToLower(s)
  {
  }

  /** Lower-casing identifies exactly the strings that differ only in case. */
  lemma ToLowerEqualIff(a: seq<char>, b: seq<char>)
    ensures ToLower(a) == ToLower(b) <==> EqualIgnoringCase(a, b)
  {
    if ToLower(a) == ToLower(b) {
      assert |a| == |b|;
      forall i | 0 <= i < |a| ensures LowerChar(a[i]) == LowerChar(b[i]) {
        assert ToLower(a)[i] == ToLower(b)[i];
      }
    }
  }

  /** A string without upper-case letters is its own lower-case form. */
  lemma ToLowerOfLower(s: seq<char>)
    requires forall i :: 0 <= i < |s| ==> !IsUpper(s[i])
    ensures ToLower(s) == s
  {
  }

  /** Lower-casing distributes over concatenation. */
  lemma ToLowerAppend(a: seq<char>, b: seq<char>)
    ensures ToLower(a + b) == ToLower(a) + ToLower(b)
  {
  }
}
